=== FILE: README.md ===
# Autocompletion for a wiki text editor, modelled in Dafny

This project models the autocompletion core of a TiddlyWiki editor plugin.
As the user types inside a text area, the plugin watches for a trigger such
as `[[`. It then reads the partial word between the trigger and the cursor
and asks a completion source for matching candidates. The candidates are
ranked into a popup list. ENTER splices the chosen candidate's insertion
text over the partial.

The code has two generations, and both are modelled:

- `files/completion.js` is the current controller (`Completion`).
  - A trigger is recognised by comparing the text that ends at the cursor with each template's trigger (`matchesTemplate`).
  - Each template owns a completion source:
    - wiki tiddlers chosen by a filter;
    - the outline of the tiddler's PDF;
    - the references of the tiddler's paper.
  - Each source ranks its candidates with `rank`: prefix matches, then a spacer, then contains-only matches, and an ellipsis when the list is cut.
  - The selection is inserted as a markdown link.
- `plugin/files/completion.js` is the legacy controller.
  - A trigger is recognised by one character counter per template (`template.pos`).
  - Titles are filtered by plain containment (`_findBestMatches`).
  - The choice is written between the template's start and end delimiters (`_insertInto`).

Modules, in dependency order:

| module | file | contents |
|---|---|---|
| `Wrappers` | wrappers.dfy | `Option`, `Result`, `Outcome`, which is either a normal return or a throw with the state reached, and `Build`, which selects the code as written or its corrected reading in the steps the findings below concern |
| `Text` | text.dfy | the JavaScript string operations the code relies on (`lastIndexOf`, `indexOf`, `slice`), case folding, and title order |
| `Pattern` | pattern.dfy | templates, the span extractor `extractPattern`, and the trigger matcher `matchesTemplate` |
| `Keys` | keys.dfy | key codes and the trigger key-combination matcher `keyMatchGenerator` |
| `Items` | items.dfy | candidates and sentinels, insertion texts, which entries fail to render, `insertInto` and `_insertInto`, and selection stepping |
| `Ranking` | ranking.dfy | the shared `rank`, and the reference source's influential-first ranking |
| `Sources` | sources.dfy | the three completion sources, `indexReferences`, and dispatch by source |
| `Controller` | controller.dfy | the current controller's state machine and its four event handlers |
| `Legacy` | legacy.dfy | the legacy controller: counters, `_findBestMatches`, and its handlers |

An event handler is a pure function from a `Session` to a new `Session`.
`Session` is a datatype of the controller's fields. When a handler can throw,
it returns an `Outcome` instead. Every handler keeps a well-formedness
predicate `Wf`:

- the cursor lies inside the text;
- the selection is either -1 or inside the list;
- outside VOID a template is set.

Three steps of the code do something other than what they evidently intend
(see "## Findings"). The handlers that reach them take a `Build`: `AsWritten`
is the program, and `Corrected` swaps in the intended step. The lemmas state
what each build does, side by side.

The model replaces four things with data:

- the wiki's filter search is a function parameter `search`;
- the text area is an `Edit` (its text and cursor);
- the browser's editing of the text area arrives as an argument to the input handler;
- the PDF outline is a list that has already been flattened.

## Model

| member | source | states |
|---|---|---|
| Text.LastIndexOf | files/completion.js:1017-1019 | the result is -1 or the greatest start at or before `from` where the needle occurs, and no occurrence lies after it |
| Text.IndexOf | files/completion.js:1020 | the result is -1 or the least start at or after `from` where the needle occurs, and no occurrence lies before it |
| Text.Slice | files/completion.js:1029 | for bounds within the text the JavaScript slice is the sequence slice, and bounds that cross give the empty string |
| Text.SliceClamps | files/completion.js:1029 | an upper bound past the end is clamped to the length, and a lower bound at or past the end gives the empty string |
| Text.Canon | files/completion.js:302-304 | the compared form keeps the length; each character is folded when the comparison ignores case and unchanged otherwise |
| Text.StartsWithContains | files/completion.js:303-304 | a title that starts with the partial also contains it, so every prefix match is also a containment match |
| Text.BeforeColon | files/completion.js:463-464 | the reference type is a prefix of the id with no colon in it, and it is the whole id when the id has no colon |
| Text.LexLeqTotal | files/completion.js:503 | the title order used by the reference sort is total |
| Text.LexLeqTransitive | files/completion.js:503 | the title order used by the reference sort is transitive |
| Pattern.ExtractPattern | files/completion.js:1014-1034 | a span is found exactly when the last trigger at or before the cursor is unclosed, or a closer starts at the cursor. The partial runs from the end of the trigger to the cursor. The span ends at the first closer at or after the cursor, or at the cursor when there is none |
| Pattern.ExtractExample | files/completion.js:1014-1034 | `abc [[Foo` with the cursor at the end yields the partial `Foo` starting at index 4 |
| Pattern.ExtractOpenBrackets | plugin/files/completion.js:109-129 | a text that is just `[[` opens a span with an empty partial |
| Pattern.MatchesTemplate | files/completion.js:821-836 | true exactly when the text before the cursor ends with the trigger, or, when fewer characters precede the cursor, when they are the trigger's tail. A cursor beyond the text never matches a non-empty trigger |
| Pattern.SuffixAgree | files/completion.js:821-836 | when at least the trigger's length precedes the cursor, the reverse comparison succeeds exactly when the text before the cursor ends with the trigger |
| Pattern.PartialSuffixAgree | files/completion.js:821-836 | when fewer characters than the trigger precede the cursor, the reverse comparison succeeds exactly when those characters are the trigger's tail |
| Pattern.MatchesDownFull | files/completion.js:821-836 | with the whole trigger before the cursor, the reverse scan succeeds exactly when the text just before the cursor is the trigger |
| Pattern.MatchesDownPartial | files/completion.js:821-836 | with only part of the trigger before the cursor, the reverse scan succeeds exactly when that text is the trigger's tail |
| Pattern.MatchesDownBeyond | files/completion.js:821-836 | a cursor past the end of the text fails the first comparison of a non-empty trigger |
| Pattern.MatchesAtStart | files/completion.js:821-836 | a cursor at position 0 matches every trigger |
| Keys.KeyMatches | files/completion.js:254-283 | an event satisfies a combination exactly when it satisfies each character's test: `^` is Ctrl, `+` is Shift, `!` is Alt, and any other character is that key's code |
| Keys.DefaultTrigger | files/completion.js:552 | the default combination `^ ` accepts exactly Ctrl+Space |
| Items.NextIndex | files/completion.js:665-671 | `_next` moves the selection down by one, and the last element goes back to none |
| Items.PreviousIndex | files/completion.js:672-679 | `_previous` goes from none to the last element and otherwise moves up by one |
| Items.SelectionStepsInverse | files/completion.js:665-693 | each of the two steps undoes the other |
| Items.InsertionText | files/completion.js:99-252 | sentinels throw and candidates never do. A plain item gives its title; every other candidate gives a markdown link |
| Items.InsertionLinkRoundTrip | files/completion.js:135-209 | each link parses back to its caption and target: `#title` for a tiddler, `pdf#destination` for an outline entry, and the title with `#` plus the resolved entry (or `null`) for a reference |
| Items.ParseLink | files/completion.js:135-209 | whatever it parses is exactly `[caption](target)`, with the given caption length |
| Items.InsertInto | files/completion.js:1043-1050 | the text before `posBefore` and after `posAfter` is kept, the insertion fills the gap, and the cursor ends after it |
| Items.InsertWrapped | plugin/files/completion.js:155-166 | the same splice, with the choice written between the template's start and end delimiters (default `[[` and `]]`). The cursor ends after the closing delimiter |
| Items.WrappedIsDelimitedInsert | plugin/files/completion.js:155-166 | the legacy splice is the plain splice of the delimited text, for every input |
| Ranking.Select | files/completion.js:309-341 | the candidates of one match class, in input order, are never more than the input |
| Ranking.SelectSound | files/completion.js:309-341 | every candidate selected is an input candidate of the requested class |
| Ranking.RankFromAll | files/completion.js:312-354 | when the matches never exceed the limit, the scan ends with the prefix matches, one spacer and the contains-only matches, each group in input order |
| Ranking.RankFromExit | files/completion.js:312-341 | the scan stops at the match that arrives with the limit reached: a prefix match adds only the ellipsis, a contains-only match is appended with the pending contains-only matches before the ellipsis |
| Ranking.ExitPointExists | files/completion.js:318-335 | when more candidates match than the limit, some match arrives with exactly `limit` matches before it |
| Ranking.TruncatedShape | files/completion.js:318-335 | a cut list is non-empty, has at most `limit + 2` entries, ends in the ellipsis, and everything before it is a matching input candidate |
| Ranking.Rank | files/completion.js:299-354 | with at most `limit` matches, the list is the prefix matches, one spacer, then the contains-only matches, each group in input order. Otherwise the list is cut at the first match beyond the limit, as `Truncated` describes |
| Ranking.RankOverflowShape | files/completion.js:318-335 | a cut list ends in an ellipsis, holds no spacer, and has at most `limit + 2` entries, all but the last of them candidates |
| Ranking.RankKeepsMatches | files/completion.js:299-354 | every candidate in the ranked list is an input that contains the partial |
| Ranking.RankKeepsHits | files/completion.js:299-354 | every candidate in the ranked list is an input that starts with or contains the partial |
| Ranking.RankEmpty | files/completion.js:344-352 | no candidates at all rank to the spacer alone |
| Ranking.BeforeTotal | files/completion.js:489-503 | the influential-first order is total |
| Ranking.BeforeTransitive | files/completion.js:489-503 | the influential-first order is transitive |
| Ranking.InsertByImportance | files/completion.js:489-503 | inserting adds the element and nothing else (as a multiset) |
| Ranking.InsertKeepsSorted | files/completion.js:489-503 | inserting into a list in influential-first order keeps it in that order |
| Ranking.PrependSorted | files/completion.js:489-503 | a head that comes before every element of a sorted list keeps the list sorted |
| Ranking.InsertLowerBound | files/completion.js:489-503 | an element before the inserted one and before the whole list is still before every element after the insertion |
| Ranking.SortByImportance | files/completion.js:489-503 | the sort is a permutation of its input |
| Ranking.SortIsSorted | files/completion.js:489-503 | the sort's result is in influential-first order |
| Ranking.SliceTo | files/completion.js:505 | `slice(0, end)` is a prefix whose length is `end` clamped to the list, or counted back from the end when `end` is negative |
| Ranking.PaperRankShape | files/completion.js:483-513 | a typed partial gets the shared ranking. An empty partial gets as many inputs as the limit allows, in influential-first order, then an ellipsis and no spacer. The kept inputs are a sub-multiset of the input, each comes before every input left out, and all are kept when the limit covers the input |
| Ranking.TopShape | files/completion.js:485-510 | the empty-partial list is `limit` inputs in influential-first order, then an ellipsis. They are a sub-multiset of the input, and each comes before every input left out |
| Ranking.TopKeepsBest | files/completion.js:485-510 | sorting then cutting keeps a sub-multiset of the input, each kept candidate coming before every one cut |
| Ranking.PrefixKeepsBest | files/completion.js:505 | a prefix of a list in influential-first order is a sub-multiset of it whose elements come before every element past the prefix |
| Ranking.CutItems | files/completion.js:505-510 | the items before the ellipsis are the sliced list, element by element |
| Ranking.TopNoSpacer | files/completion.js:485-510 | the empty-partial list never holds a spacer |
| Ranking.TopComplete | files/completion.js:485-510 | when the limit covers the input, the empty-partial list holds exactly the input candidates, counted with repetition |
| Sources.TiddlerItems | files/completion.js:377-383 | each title the search returned becomes a tiddler item, in order |
| Sources.OutlineItems | files/completion.js:407-416 | each outline node becomes an outline entry of the named PDF. A PDF without an outline offers nothing |
| Sources.ReferenceQuery | files/completion.js:463-467 | the search for a paper is `[!has[draft.of]field:` TYPE `[` ID `]]`, where TYPE is exactly the id's part before its first colon (the whole id without one) |
| Sources.First | files/completion.js:468-471 | the resolved entry is the first search hit, or none when the search found nothing |
| Sources.Indexed | files/completion.js:451-480 | indexing keeps one association per reference that has a paper, never more than the references |
| Sources.IndexedFaithful | files/completion.js:451-480 | every association resolves some reference that has a paper: it carries that paper, its influence flag and the paper's first search hit. When every reference has a paper, none is dropped |
| Sources.IndexedAppend | files/completion.js:457-477 | indexing two runs of references is indexing each run in turn |
| Sources.IndexedStep | files/completion.js:457-477 | one more reference adds its resolution to the index, or nothing when it describes no paper |
| Sources.IndexReferences | files/completion.js:451-480 | the loop builds exactly the indexed associations |
| Sources.ReferenceItems | files/completion.js:527-530 | each association becomes a reference item with the paper's title, its influence flag and its resolved entry |
| Sources.CompleteWithoutCandidates | files/completion.js:366-385 | with nothing to offer, the tiddler source and the PDF source return the spacer alone, and the reference source returns an empty list (lines 532-534) |
| Sources.CompleteOffersMatches | files/completion.js:366-545 | every candidate returned contains the partial (for references, once something is typed) and comes from that source: a searched tiddler, an outline node of its PDF, or one of its references |
| Sources.FilteringOffersMatches | files/completion.js:366-383 | every candidate the tiddler source offers contains the partial and is a title the template's filter returned |
| Sources.PdfOffersMatches | files/completion.js:398-429 | every candidate the PDF source offers contains the partial and is an outline node of that source's PDF |
| Sources.PaperOffersMatches | files/completion.js:515-536 | every candidate the reference source offers is one of its indexed references, and contains the partial once something is typed |
| Sources.FilteringListsAllWhenEmpty | files/completion.js:366-385 | with an empty partial and at most `maximumMatches` titles, the tiddler source lists every searched title in search order, then the spacer |
| Sources.EmptyIsPrefix | files/completion.js:318 | every title starts with the empty partial |
| Sources.SelectAllPrefix | files/completion.js:318 | with an empty partial the prefix group is the whole input, in order |
| Sources.SelectNoneInside | files/completion.js:327 | with an empty partial the contains-only group is empty |
| Controller.InitialWf | files/completion.js:573-579 | the fresh controller is well formed, in VOID, with an empty list and an empty popup |
| Controller.Templates | files/completion.js:644-650 | there are never more templates than sources |
| Controller.Owners | files/completion.js:644-650 | each owner is the position of a source |
| Controller.TemplatesInOrder | files/completion.js:644-650 | template `i` is the template of source `Owners[i]`, the owners strictly increase, and every source with a template is an owner: the templates are exactly the sources' templates, in source order |
| Controller.TemplatesOwned | files/completion.js:644-650 | there is one owner per template, and each owner carries its template |
| Controller.OwnersIncrease | files/completion.js:644-650 | the owners strictly increase, so the source order is kept |
| Controller.OwnersComplete | files/completion.js:644-650 | every source with a template is an owner, so none is skipped |
| Controller.TemplatesAllPresent | files/completion.js:644-650 | when every source has a template, template `i` belongs to source `i`, which the detection step relies on (line 867) |
| Items.FirstWhere | files/completion.js:852-871 | the result is the first index whose element satisfies the test, or none when no element does |
| Controller.Next | files/completion.js:665-671 | only the selection changes. With a list it moves down over the popup's children, wrapping to none after the last child. The children are a prefix of the list, so only a rendered entry can be selected |
| Controller.Previous | files/completion.js:672-679 | only the selection changes. With a list it moves up over the popup's children, going from none to the last child |
| Controller.NextPreviousInverse | files/completion.js:665-693 | DOWN then UP, and UP then DOWN, restore the session |
| Controller.NextCycles | files/completion.js:665-671 | `n` DOWNs advance the selection by `n`, wrapping through none, and a full turn of the child count plus one restores the session. The child count is the list's length after a refresh that rendered every entry (`Refresh`) |
| Controller.NextN | files/completion.js:665-671 | repeated DOWN keeps the session well formed and changes only the selection |
| Controller.Abort | files/completion.js:697-703 | back to VOID with no selection, no template, no source and the popup hidden. The list, the text and the anchor are kept |
| Controller.HandleKeydown | files/completion.js:743-765 | keydown only forgets pending input |
| Controller.HandleInput | files/completion.js:769-772 | input records the edited text and cursor, and marks input as pending |
| Controller.MoveCaret | files/completion.js:839 | a caret move changes the cursor and nothing in the text |
| Controller.HandleKeypress | files/completion.js:777-807 | the trigger combination while VOID enters PATTERN. It uses the remembered template, or else the first template whose span encloses the cursor, and stays VOID when there is none. It never sets a source. Any other key changes nothing |
| Controller.Adopt | files/completion.js:787-803 | with no remembered template, PATTERN is entered exactly when some template's span encloses the cursor, with the first such template; nothing but the phase and template changes |
| Controller.Detect | files/completion.js:851-896 | the first template whose trigger ends at the cursor enters PATTERN with that template, the source of the same index, and the cursor as anchor. With no such template nothing changes |
| Controller.Pick | files/completion.js:915-937 | the selection when it is not `_maxMatch` and names a candidate, otherwise the first candidate in the list. There is no result exactly when the list holds no candidate |
| Controller.Commit | files/completion.js:915-940 | the corrected ENTER inserts the picked candidate's text over the span from the trigger to the cursor, or leaves the text when there is none. It ends in VOID with no selection and the popup hidden, keeping the list |
| Controller.Taken | files/completion.js:919-932 | the entry ENTER takes as written: the selection when it is not `_maxMatch`, otherwise the first entry, whatever it is. There is none only for an empty list |
| Controller.CommitAsWritten | files/completion.js:915-940 | ENTER as written throws exactly when the taken entry is a sentinel, with the sentinel's message and the state untouched. Otherwise it inserts the taken entry's text over the span (or nothing for an empty list) and aborts: VOID, no selection, template or source, popup hidden, list kept |
| Controller.CommitsAgree | files/completion.js:915-940 | wherever the written ENTER returns normally, it reaches the same state as the corrected one |
| Controller.Refresh | files/completion.js:953-979 | the selection is dropped. Without a source the step throws the null-source error, with the popup's children untouched. Otherwise the list becomes the source's completions of the partial, and the step throws exactly when some listed entry cannot render: the popup then holds the entries before the first such entry, and its visibility and pending input are as they were. On a normal return the popup holds the whole list and shows exactly when it is non-empty, and an empty list stays in PATTERN |
| Items.RenderFailure | files/completion.js:140-180 | as written an outline entry cannot render, because it lacks `getElement`; corrected it renders. A reference fails in both builds exactly when it resolved to no wiki entry. Nothing else fails |
| Controller.Arrive | files/completion.js:844-896 | ESC without pending input aborts; inside a span any other key leaves the session as it is, and the text and pending input are never changed |
| Controller.HandleKeyup | files/completion.js:838-987 | ESC without pending input ends in VOID with the list kept. Inside a span with another key (ENTER included), a cursor before the anchor aborts and forgets the input, and a lost span returns to VOID with everything else kept; otherwise the span is left exactly when ENTER commits normally. UP and DOWN without input enter SELECT and move the selection by `_previous` and `_next` over the popup's children, with the list unchanged. Only ENTER changes the text. A normal return keeps pending input only on a lost span; a throw leaves it as it was. ENTER throws only as written; other throws are a missing source or an entry that cannot render. A changed list comes with a source, a span and no selection |
| Controller.Respond | files/completion.js:915-979 | inside a span the state leaves PATTERN/SELECT exactly when ENTER commits normally. UP and DOWN without input enter SELECT and move the selection by `_previous` and `_next` over the popup's children, with the list unchanged; only ENTER changes the text, and the throws are those of `HandleKeyup` |
| Controller.KeyupDetectsTrigger | files/completion.js:851-979 | fresh input that completes a trigger enters PATTERN with that template, the source of the same index and the cursor as anchor, and lists that source's completions. It throws exactly when an entry cannot render; otherwise the popup shows exactly when the list is non-empty |
| Controller.KeyupEnterCommits | files/completion.js:915-940 | ENTER inside a span, as written, throws with the state untouched exactly when the taken entry is a sentinel. Otherwise the text becomes the part before the span, the entry's text and the part after the cursor, the cursor ends after the insertion, and the controller is back in VOID with the list kept |
| Controller.KeyupEnterCommitsCorrected | files/completion.js:915-940 | ENTER inside a span, corrected, never throws: the picked candidate's text replaces the span, the cursor ends after it, and the controller is back in VOID |
| Controller.KeyupEnterResponds | files/completion.js:838-915 | ENTER inside a span reaches the commit step with the session unchanged |
| Controller.SpliceParts | files/completion.js:1043-1050 | the spliced text is the part before the span, the inserted text and the part after the cursor |
| Controller.KeyupRefreshes | files/completion.js:953-979 | any key other than ESC, ENTER and navigation inside a span is exactly the refresh step |
| Controller.TriggerComboLeavesNoSource | files/completion.js:787-806 | Ctrl+Space over `[[` enters PATTERN without a source, so the next ordinary keyup throws on the null source (line 960) in either build |
| Controller.OutlineNeverRenders | files/completion.js:140-149 | for a PDF source the refresh as written throws (line 968) exactly when the list holds a candidate, so the outline popup never shows. Corrected it never throws, and the popup shows exactly when the list is non-empty |
| Controller.OutlineNeverSelected | files/completion.js:665-671 | after the written refresh of a PDF source has thrown, no number of DOWN presses selects a candidate: the popup holds only the sentinels before the first outline entry |
| Controller.EnterThrowsOnLeadingSpacer | files/completion.js:927-932 | with no selection, the spacer first and a candidate later in the list, the ENTER step as written throws `spacer items cannot be inserted` with the state untouched, while the corrected ENTER returns normally and inserts a candidate |
| Controller.RankLeadsWithSpacer | files/completion.js:344-347 | when no candidate starts with the partial and the list is not cut, the ranked list opens with the spacer |
| Controller.NoPrefixSelected | files/completion.js:318-325 | when no candidate starts with the partial, there are no prefix matches |
| Controller.CommitInsertsCandidate | files/completion.js:915-937 | the corrected commit inserts a candidate of the list, never a sentinel, and without a selection the first candidate |
| Legacy.Matching | plugin/files/completion.js:88-91 | the titles containing the partial, in input order |
| Legacy.MatchingAppend | plugin/files/completion.js:88-100 | filtering two runs of titles is filtering each run in turn |
| Legacy.MatchingStep | plugin/files/completion.js:88-100 | scanning one more title adds it to the matches exactly when it contains the pattern |
| Legacy.OverflowAt | plugin/files/completion.js:92-95 | a match that arrives with the budget used up ends the list with `...` after the matches before it |
| Legacy.BestMatches | plugin/files/completion.js:79-101 | at most `nbMax + 1` entries. Every entry other than `...` is a matching title. The list is cut, with `...` at index `nbMax`, exactly when more than `nbMax` titles match |
| Legacy.FindBestMatches | plugin/files/completion.js:79-101 | the loop with its early return builds exactly that list |
| Legacy.Advance | plugin/files/completion.js:345-360 | a counter steps forward exactly when the character is the trigger's next one, and otherwise falls back to 0 |
| Legacy.Codes | plugin/files/completion.js:289 | the code of each character, in order |
| Legacy.CounterMissesOverlap | plugin/files/completion.js:345-360 | with trigger `aab`, typing `aaab` ends on the trigger, but the counter never reaches 3 |
| Legacy.FinishedCounterSwallowsNextChar | plugin/files/completion.js:345-360 | a counter left at the trigger's end resets on the next character, so a trigger typed right after a recognised one is missed |
| Legacy.FeedBelow | plugin/files/completion.js:345-360 | fewer characters than the trigger still needs cannot complete it |
| Legacy.Scan | plugin/files/completion.js:340-362 | each template's counter steps on the last character until one completes its trigger. That template is returned, and the later templates keep their counters |
| Legacy.InitialWf | plugin/files/completion.js:24-40 | the fresh controller is well formed and in VOID |
| Legacy.Next | plugin/files/completion.js:203-209 | only the selection changes, moving down and wrapping to none |
| Legacy.Previous | plugin/files/completion.js:210-217 | only the selection changes, moving up and going from none to the last element |
| Legacy.NextPreviousInverse | plugin/files/completion.js:203-231 | DOWN then UP, and UP then DOWN, restore the session |
| Legacy.AbortAsWritten | plugin/files/completion.js:235-242 | the abort as written returns to VOID with no selection, template or popup, but keeps the old list, because it clears a misspelt field. Counters, text, pending input and the last character are kept |
| Legacy.Abort | plugin/files/completion.js:235-242 | the corrected abort returns to VOID with an empty list. Counters, text, pending input and the last character are kept |
| Legacy.AbortIn | plugin/files/completion.js:235-242 | the abort of either build: both return to VOID keeping everything but the list, which only the written one keeps |
| Legacy.OnKeyDown | plugin/files/completion.js:250-272 | keydown only forgets pending input |
| Legacy.OnInput | plugin/files/completion.js:276-279 | input records the edit and marks input as pending |
| Legacy.CodeUnit | plugin/files/completion.js:289 | `String.fromCharCode` reduces the key code to a 16-bit code unit, and leaves codes below 65536 unchanged |
| Legacy.OnKeyPress | plugin/files/completion.js:283-316 | the last character is recorded. Ctrl+Space while VOID enters PATTERN exactly when some template's span encloses the cursor, choosing the first such template |
| Items.FirstExtracting | plugin/files/completion.js:297-309 | the first template whose span encloses the cursor, or none when there is no such template |
| Legacy.Enter | plugin/files/completion.js:367-382 | a selection counts unless it equals `_maxMatch`, and otherwise only a list of exactly one title is used. The choice is written wrapped over the span. The step throws, with the state untouched, exactly when a choice exists but no span encloses the cursor. Otherwise it ends in VOID with no selection and the popup hidden, the list as the build's abort leaves it |
| Legacy.Refresh | plugin/files/completion.js:397-426 | the selection is dropped and the template kept. A partial of at least two characters replaces the list with the filtered titles, the popup shows exactly when some title matched, and an empty list stays in PATTERN. A shorter partial changes nothing else |
| Legacy.OnKeyUp | plugin/files/completion.js:324-433 | every keyup keeps the last character and forgets pending input when it returns normally. A key other than ENTER returns normally with the text unchanged. Fresh input while VOID leaves the list, selection and popup alone. ESC ends with no selection, the popup hidden and the list as the build's abort leaves it. Inside a span with another key, the span is left exactly when ENTER returns normally or, for a non-navigation key, no span encloses the cursor. As written, a changed list is a refreshed one, with no selection, in PATTERN or SELECT |
| Legacy.Respond | plugin/files/completion.js:364-429 | in PATTERN or SELECT the span is left exactly when ENTER returns normally or a non-navigation key finds no span. ENTER is the insertion step on the span enclosing the cursor: it throws exactly when that step does, with its state and message, and otherwise ends in that step's state with no pending input. UP and DOWN without input select within the unchanged list. A key other than ENTER returns normally with the text unchanged, and the last character is kept |
| Legacy.OnKeyUpDetects | plugin/files/completion.js:340-362 | fresh input while VOID sets the counters to the scan's, and enters PATTERN exactly when the scan found a completed trigger, with that template. The list, selection, popup and text are kept |
| Legacy.OnKeyUpRefreshes | plugin/files/completion.js:397-426 | any key but ESC, ENTER and navigation inside a span drops the selection. With a partial of at least two characters the list becomes the template's titles filtered by the partial, shown exactly when some matched (PATTERN when none did); with a shorter partial nothing else changes |
| Legacy.OnKeyUpEnters | plugin/files/completion.js:364-382 | ENTER in PATTERN or SELECT is `Enter` on the span enclosing the cursor: the handler throws exactly when the insertion does, with the same state and message, and otherwise ends in the insertion's state with the pending input forgotten |
| Legacy.OnKeyUpNavigates | plugin/files/completion.js:383-396 | UP and DOWN without pending input inside a span enter SELECT and move the selection by `_previous` and `_next` over the unchanged list |
| Legacy.Keystroke | plugin/files/completion.js:250-433 | a printable key, passed through all four handlers, records its 16-bit code as the last character. For any key but ENTER it returns normally and leaves the edited text in place |
| Legacy.TypeOpener | plugin/files/completion.js:250-433 | typing ` [[` leaves the text ` [[` with the cursor at its end |
| Legacy.TypeOpenerDetects | plugin/files/completion.js:340-362 | after an abort of either build that left the counter at the trigger's end, typing ` [[` detects the trigger and keeps whatever list the abort left |
| Legacy.ExtractAfterSpace | plugin/files/completion.js:109-129 | ` [[` opens a span at index 1 with an empty partial |
| Legacy.EnterAfterOpener | plugin/files/completion.js:367-382 | ENTER right after the detection inserts the sole title of a one-title list, and with an empty list leaves the text alone, in either build |
| Legacy.StaleMatchReinserted | plugin/files/completion.js:235-242 | a popup showing `t` is closed with ESC. As written the list survives, and typing ` [[` then ENTER reinserts `t`. With the corrected abort the list is empty and nothing is inserted |

## Left out

- Rendering and DOM work are not modelled: the elements `getElement` builds, highlighting, popup placement, `createPopup` and `_create`. Only whether the popup is shown is kept, how many entries it holds (`shown`, which the selection steps over), and whether `getElement` throws (`RenderFailure`).
- Controller.Refresh: rendering throws in three ways in the code. An outline entry has no `getElement` (lines 140-149); this is modelled, and is Finding 3. A reference that resolved to no wiki entry reads `startsWith` of a null title (line 180); this is modelled as a throw in both builds, since the code gives no intended rendering. A tiddler item whose title names no tiddler reads `fields` of an undefined tiddler (line 124); this one is not modelled, because the search parameter returns titles only, so the model cannot tell whether a title names a tiddler.
- `saveChanges` on the widget is not modelled. It is a call into the editor widget.
- `preventDefault` and `stopPropagation` in keydown and keyup are not modelled. They concern the browser, not the state.
- The constructors' wiring is not modelled. That covers building sources from the tiddler's `pdf` field, the PDF and paper registries, and configuration reading, including the misspelt `DEFEAULT_MAX_MATCH` constant. The configuration is a parameter (`Config`).
- `Template.mask` and `Template.field` are not modelled: nothing in the core reads them. Titles are matched raw.
- Text.Canon folds ASCII letters only. JavaScript's case-insensitive regular expression folds every Unicode letter.
- `regExpEscape` is not modelled. It only makes the partial match literally, which `StartsWith` and `Contains` do directly.
- Text.LexLeq orders titles character by character. `localeCompare` uses the locale's collation, which the model cannot see. Only the ordering properties (total, transitive) are used.
- JavaScript strings are sequences of UTF-16 code units; a Dafny `string` is a sequence of Unicode scalar values. Positions, lengths, `String.fromCharCode` codes and the character order agree with JavaScript only for text inside the Basic Multilingual Plane. Text with surrogate pairs is not modelled faithfully.
- The PDF outline's `getFlattened` is not modelled: the outline arrives flattened.
- A completion source's `complete(partial, limit)` is always called without a limit by the controller. An absent limit, like 0, falls back to `maximumMatches`, which `EffectiveLimit` models.
- `_nbSquareParen` in the legacy abort is not modelled. It is written and never read.
- The legacy controller's branch that searches `[all[tiddlers]]` when no template is set is not modelled. `Wf` proves it unreachable: outside VOID a template is always set.
- Concurrency and event timing are not modelled. Events arrive one at a time, in the order the caller gives.
- The `pdfcomplete.js` wrapper is not part of this model.
- Legacy.Keystroke: the keypress and keyup codes are given separately, because browsers report different codes for the same key in the two events.

Where an intended reading differs from the code, the model follows the code:

- Titles are ranked as written. They are not stripped of the template's mask first, although the mask is documented (files/completion.js:63).
- A reference whose lookup found no entry inserts the target `#null`. The entry is not synthesised.
- A cut list can hold `limit + 2` entries. This happens when a contains-only match is the one that overflows: it is appended together with the pending contains-only matches before the ellipsis.
- For `See [[Re]]` with the cursor at the very end, no span is found. The span exists only while the cursor sits at or before the closer.

## Findings

| source | as written | input that shows it | evidently intended | confidence | as-written member | corrected member |
|---|---|---|---|---|---|---|
| files/completion.js:927-932 | with no selection, ENTER takes the list's first entry, whatever it is | candidates `[Abc]`, partial `b`: the list is `[spacer, Abc]`, and ENTER throws `spacer items cannot be inserted` | insert the first candidate of the list, skipping sentinels | not executed | Controller.CommitAsWritten, Controller.KeyupEnterCommits, Controller.EnterThrowsOnLeadingSpacer | Controller.Commit, Controller.KeyupEnterCommitsCorrected, Controller.CommitInsertsCandidate |
| plugin/files/completion.js:238 | the abort clears `_bestChoices`, a misspelt field, so `_bestMatches` survives | a popup showing only `Foo` is aborted; the user types ` [[` and presses ENTER: `[[Foo]]` is inserted unasked | the abort empties the list | not executed | Legacy.AbortAsWritten, Legacy.OnKeyUp, Legacy.StaleMatchReinserted | Legacy.Abort, Legacy.AbortIn, Legacy.StaleMatchReinserted |
| files/completion.js:140-149 | `CompletedPDFOutlineItem` calls the base constructor but never takes `CompletedItem.prototype`, so its items have no `getElement` | a PDF whose outline has a node `Intro`, partial `In`: the refresh lists the outline entry, and line 968 throws `currentMatch.getElement is not a function` before the popup is shown | outline entries render like every other item (`Object.create(CompletedItem.prototype)`, as the other item kinds do) | not executed | Items.RenderFailure, Controller.OutlineNeverRenders, Controller.OutlineNeverSelected | Items.RenderFailure, Controller.OutlineNeverRenders |

=== FILE: controller.dfy ===
/**
 * The completion controller attached to an edited text area (`Completion`):
 * a state machine over VOID, PATTERN and SELECT driven by the keydown, input,
 * keypress and keyup events, which detects a trigger before the cursor, asks
 * the matching source for candidates, moves a selection through them and
 * splices the chosen item's text over the typed span.
 */
module Controller {
  import opened Wrappers
  import opened Text
  import opened Pattern
  import opened Keys
  import opened Items
  import opened Ranking
  import opened Sources

  /**
   * What the controller is built with: its sources (in declaration order),
   * `_maxMatch`, the trigger key combination and the wiki search.
   */
  datatype Config = Config(sources: seq<Source>, maxMatch: int, trigger: string, search: Search)

  /**
   * The controller's fields and the text area it watches. `template` and
   * `source` are absent for `undefined`/`null`; `idx` is `_idxChoice`
   * (-1 for no selection); `shown` is the popup's child count, the entries
   * rendered into it, which the selection steps over; `popup` says whether
   * the popup is shown.
   */
  datatype Session = Session(
    phase: Phase,
    template: Option<Template>,
    source: Option<Source>,
    matchedPosition: int,
    bestMatches: seq<Entry>,
    shown: nat,
    idx: int,
    hasInput: bool,
    popup: bool,
    area: Edit)

  /** The state right after construction, watching `area`. */
  function Initial(area: Edit): Session {
    Session(Void, None, None, -1, [], 0, -1, false, false, area)
  }

  /**
   * The invariant every handler keeps: the cursor lies in the text, the
   * rendered entries are a prefix of the list, the selection is absent or
   * names a rendered entry, and outside VOID a template is known.
   */
  predicate Wf(s: Session) {
    && s.area.cursor <= |s.area.text|
    && s.shown <= |s.bestMatches|
    && (s.idx == -1 || 0 <= s.idx < s.shown)
    && (s.phase != Void ==> s.template.Some?)
  }

  lemma InitialWf(area: Edit)
    requires area.cursor <= |area.text|
    ensures Wf(Initial(area))
    ensures Initial(area).phase == Void && Initial(area).bestMatches == [] && Initial(area).shown == 0
  {
  }

  // ---------------------------------------------------------------------------
  // Templates
  // ---------------------------------------------------------------------------

  /** `this.templates`: the template of every source that has one, in source order. */
  function Templates(sources: seq<Source>): (r: seq<Template>)
    ensures |r| <= |sources|
  {
    if |sources| == 0 then []
    else (if sources[0].template.Some? then [sources[0].template.value] else []) + Templates(sources[1..])
  }

  /** The positions of the sources that carry a template, in increasing order. */
  function Owners(sources: seq<Source>): (r: seq<nat>)
    ensures forall i :: 0 <= i < |r| ==> r[i] < |sources|
  {
    if |sources| == 0 then []
    else
      var rest := Owners(sources[1..]);
      (if sources[0].template.Some? then [0] else []) + seq(|rest|, i requires 0 <= i < |rest| => rest[i] + 1)
  }

  /**
   * The templates are those of the sources that carry one, in source order:
   * template `i` belongs to source `Owners(sources)[i]`, the owners increase,
   * and no source with a template is left out.
   */
  lemma TemplatesInOrder(sources: seq<Source>)
    ensures var ts := Templates(sources); var ks := Owners(sources);
      && |ts| == |ks|
      && (forall i :: 0 <= i < |ks| ==> sources[ks[i]].template == Some(ts[i]))
      && (forall i, j :: 0 <= i < j < |ks| ==> ks[i] < ks[j])
      && (forall k :: 0 <= k < |sources| && sources[k].template.Some? ==> k in ks)
  {
    TemplatesOwned(sources);
    OwnersIncrease(sources);
    OwnersComplete(sources);
  }

  lemma {:induction false} TemplatesOwned(sources: seq<Source>)
    ensures |Templates(sources)| == |Owners(sources)|
    ensures forall i :: 0 <= i < |Owners(sources)| ==> sources[Owners(sources)[i]].template == Some(Templates(sources)[i])
    decreases |sources|
  {
    if |sources| > 0 {
      var tail := sources[1..];
      TemplatesOwned(tail);
      var rest := Owners(tail);
      var tts := Templates(tail);
      var h := if sources[0].template.Some? then 1 else 0;
      var shifted := seq(|rest|, i requires 0 <= i < |rest| => rest[i] + 1);
      var ks := Owners(sources);
      var ts := Templates(sources);
      assert ks == (if h == 1 then [0] else []) + shifted;
      assert ts == (if h == 1 then [sources[0].template.value] else []) + tts;
      forall i | 0 <= i < |ks|
        ensures sources[ks[i]].template == Some(ts[i])
      {
        if i >= h {
          assert ks[i] == shifted[i - h] == rest[i - h] + 1;
          assert ts[i] == tts[i - h];
          assert sources[ks[i]] == tail[rest[i - h]];
        }
      }
    }
  }

  lemma {:induction false} OwnersIncrease(sources: seq<Source>)
    ensures forall i, j :: 0 <= i < j < |Owners(sources)| ==> Owners(sources)[i] < Owners(sources)[j]
    decreases |sources|
  {
    if |sources| > 0 {
      OwnersIncrease(sources[1..]);
    }
  }

  lemma {:induction false} OwnersComplete(sources: seq<Source>)
    ensures forall k :: 0 <= k < |sources| && sources[k].template.Some? ==> k in Owners(sources)
    decreases |sources|
  {
    if |sources| > 0 {
      var tail := sources[1..];
      OwnersComplete(tail);
      var rest := Owners(tail);
      var h := if sources[0].template.Some? then 1 else 0;
      var ks := Owners(sources);
      forall k | 0 < k < |sources| && sources[k].template.Some?
        ensures k in ks
      {
        assert tail[k - 1] == sources[k];
        var i :| 0 <= i < |rest| && rest[i] == k - 1;
        assert ks[i + h] == k;
      }
    }
  }

  /**
   * When every source carries a template, template `i` is source `i`'s, so
   * the index the keyup handler uses for both names one source.
   */
  lemma {:induction false} TemplatesAllPresent(sources: seq<Source>)
    requires forall i :: 0 <= i < |sources| ==> sources[i].template.Some?
    ensures |Templates(sources)| == |sources|
    ensures forall i :: 0 <= i < |sources| ==> sources[i].template == Some(Templates(sources)[i])
    decreases |sources|
  {
    if |sources| > 0 {
      TemplatesAllPresent(sources[1..]);
      forall i | 0 < i < |sources|
        ensures sources[i].template == Some(Templates(sources)[i])
      {
        assert sources[i] == sources[1..][i - 1];
      }
    }
  }

  // ---------------------------------------------------------------------------
  // Selection and abort
  // ---------------------------------------------------------------------------

  /**
   * `_next`: with a non-empty list, step the selection down over the popup's
   * children, leaving them (back to no selection) after the last one. Only
   * the rendered entries can be selected; with none the selection stays
   * absent.
   */
  function Next(s: Session): (r: Session)
    requires Wf(s)
    ensures Wf(r)
    ensures r == s.(idx := r.idx)
    ensures |s.bestMatches| == 0 ==> r == s
    ensures |s.bestMatches| > 0 ==> r.idx == (if s.idx + 1 == s.shown then -1 else s.idx + 1)
  {
    if |s.bestMatches| > 0 then s.(idx := NextIndex(s.idx, s.shown)) else s
  }

  /** `_previous`: step the selection up over the popup's children, from no selection to the last one. */
  function Previous(s: Session): (r: Session)
    requires Wf(s)
    ensures Wf(r)
    ensures r == s.(idx := r.idx)
    ensures |s.bestMatches| == 0 ==> r == s
    ensures |s.bestMatches| > 0 ==> r.idx == (if s.idx == -1 then s.shown - 1 else s.idx - 1)
  {
    if |s.bestMatches| > 0 then s.(idx := PreviousIndex(s.idx, s.shown)) else s
  }

  /** Up undoes down and down undoes up: the selection cycles through the children and "none". */
  lemma NextPreviousInverse(s: Session)
    requires Wf(s)
    ensures Previous(Next(s)) == s
    ensures Next(Previous(s)) == s
  {
    if |s.bestMatches| > 0 {
      SelectionStepsInverse(s.idx, s.shown);
    }
  }

  /**
   * Going down steps through the children and "none" in a cycle: after `n`
   * presses (at most one full turn of `shown + 1`) the selection has moved
   * `n` places, wrapping once through "none", and a full turn restores the
   * state. After a refresh that rendered everything, `shown` is the list's
   * length.
   */
  lemma {:induction false} NextCycles(s: Session, n: nat)
    requires Wf(s) && |s.bestMatches| > 0 && n <= s.shown + 1
    ensures NextN(s, n) == s.(idx := NextN(s, n).idx)
    ensures s.idx + 1 + n <= s.shown ==> NextN(s, n).idx == s.idx + n
    ensures s.idx + 1 + n > s.shown ==> NextN(s, n).idx == s.idx + n - s.shown - 1
    ensures n == s.shown + 1 ==> NextN(s, n) == s
  {
    if n > 0 {
      NextCycles(s, n - 1);
    }
  }

  /** `n` presses of the down key. */
  function NextN(s: Session, n: nat): (r: Session)
    requires Wf(s)
    ensures Wf(r) && r == s.(idx := r.idx)
  {
    if n == 0 then s else Next(NextN(s, n - 1))
  }

  /** `_abortPattern`: back to VOID with no selection, popup hidden, template and source forgotten. */
  function Abort(s: Session): (r: Session)
    requires Wf(s)
    ensures Wf(r)
    ensures r.phase == Void && r.idx == -1 && !r.popup && r.template.None? && r.source.None?
    ensures r.bestMatches == s.bestMatches && r.area == s.area && r.hasInput == s.hasInput
    ensures r.matchedPosition == s.matchedPosition
  {
    s.(phase := Void, idx := -1, popup := false, template := None, source := None)
  }

  // ---------------------------------------------------------------------------
  // Keydown, input, caret
  // ---------------------------------------------------------------------------

  /** `handleKeydown`: forget any pending input (the default actions it cancels are not modelled). */
  function HandleKeydown(s: Session): (r: Session)
    requires Wf(s)
    ensures Wf(r) && !r.hasInput && r == s.(hasInput := false)
  {
    s.(hasInput := false)
  }

  /** `handleInput`, together with the edit the browser made to the text area. */
  function HandleInput(s: Session, area: Edit): (r: Session)
    requires Wf(s) && area.cursor <= |area.text|
    ensures Wf(r) && r.hasInput && r.area == area && r == s.(hasInput := true, area := area)
  {
    s.(hasInput := true, area := area)
  }

  /** A caret move that changes no text (arrow keys, mouse): no input is recorded. */
  function MoveCaret(s: Session, cursor: nat): (r: Session)
    requires Wf(s) && cursor <= |s.area.text|
    ensures Wf(r) && r.area.text == s.area.text && r.area.cursor == cursor
  {
    s.(area := s.area.(cursor := cursor))
  }

  // ---------------------------------------------------------------------------
  // Keypress: the explicit trigger
  // ---------------------------------------------------------------------------

  /**
   * `handleKeypress`: the trigger combination while VOID enters PATTERN, with
   * the remembered template or else the first template whose span encloses the
   * cursor. The source is not looked up on this path.
   */
  function HandleKeypress(cfg: Config, s: Session, e: KeyEvent): (r: Session)
    requires Wf(s)
    ensures Wf(r)
    ensures r.source == s.source && r.matchedPosition == s.matchedPosition && r.area == s.area
    ensures !KeyMatches(cfg.trigger, e) || s.phase != Void ==> r == s
    ensures KeyMatches(cfg.trigger, e) && s.phase == Void && s.template.Some? ==> r == s.(phase := Typing)
    ensures KeyMatches(cfg.trigger, e) && s.phase == Void && s.template.None? ==>
      var ts := Templates(cfg.sources);
      && (r.phase == Typing <==> exists i :: 0 <= i < |ts| && ExtractPattern(s.area.text, s.area.cursor, ts[i]).Some?)
      && (r.phase == Typing ==>
            exists i :: 0 <= i < |ts| && r.template == Some(ts[i])
              && ExtractPattern(s.area.text, s.area.cursor, ts[i]).Some?
              && forall j :: 0 <= j < i ==> ExtractPattern(s.area.text, s.area.cursor, ts[j]).None?)
  {
    if KeyMatches(cfg.trigger, e) && s.phase == Void then
      if s.template.None? then Adopt(Templates(cfg.sources), s) else s.(phase := Typing)
    else s
  }

  /**
   * The trigger combination with no remembered template: adopt the first
   * template whose span encloses the cursor and enter PATTERN, or stay VOID
   * when no span encloses it.
   */
  function Adopt(ts: seq<Template>, s: Session): (r: Session)
    requires Wf(s) && s.phase == Void
    ensures Wf(r) && r == s.(phase := r.phase, template := r.template)
    ensures r.phase == Typing <==> exists i :: 0 <= i < |ts| && ExtractPattern(s.area.text, s.area.cursor, ts[i]).Some?
    ensures r.phase == Typing ==>
      exists i :: 0 <= i < |ts| && r.template == Some(ts[i])
        && ExtractPattern(s.area.text, s.area.cursor, ts[i]).Some?
        && forall j :: 0 <= j < i ==> ExtractPattern(s.area.text, s.area.cursor, ts[j]).None?
  {
    match FirstExtracting(ts, s.area.text, s.area.cursor)
    case None => s
    case Some(i) =>
      assert ExtractPattern(s.area.text, s.area.cursor, ts[i]).Some?;
      s.(template := Some(ts[i]), phase := Typing)
  }

  // ---------------------------------------------------------------------------
  // Keyup
  // ---------------------------------------------------------------------------

  /**
   * The detection step of `handleKeyup`: the first template whose trigger
   * ends exactly at the cursor selects its template and source and anchors
   * the span at the cursor.
   */
  function Detect(cfg: Config, s: Session): (r: Session)
    requires Wf(s)
    ensures Wf(r)
    ensures var ts := Templates(cfg.sources);
      match FirstWhere(ts, (t: Template) => MatchesTemplate(t.pat, s.area.text, s.area.cursor))
      case None => r == s
      case Some(i) => r == s.(phase := Typing, template := Some(ts[i]), matchedPosition := s.area.cursor,
                               source := Some(cfg.sources[i]))
  {
    var ts := Templates(cfg.sources);
    match FirstWhere(ts, (t: Template) => MatchesTemplate(t.pat, s.area.text, s.area.cursor))
    case None => s
    case Some(i) =>
      s.(phase := Typing, template := Some(ts[i]), matchedPosition := s.area.cursor, source := Some(cfg.sources[i]))
  }

  /**
   * The candidate the corrected commit inserts: the selection when it counts
   * (it is not `_maxMatch`) and names a candidate, else the first candidate
   * listed.
   */
  function Pick(bm: seq<Entry>, idx: int, maxMatch: int): (r: Option<Candidate>)
    requires idx == -1 || 0 <= idx < |bm|
    ensures r.None? <==> forall i :: 0 <= i < |bm| ==> !bm[i].Choice?
    ensures idx > -1 && idx != maxMatch && bm[idx].Choice? ==> r == Some(bm[idx].item)
    ensures !(idx > -1 && idx != maxMatch && bm[idx].Choice?) && r.Some? ==>
      exists k :: 0 <= k < |bm| && bm[k] == Choice(r.value) && forall j :: 0 <= j < k ==> !bm[j].Choice?
  {
    if idx > -1 && idx != maxMatch && bm[idx].Choice? then Some(bm[idx].item)
    else match FirstWhere(bm, (e: Entry) => e.Choice?)
      case None => None
      case Some(k) => Some(bm[k].item)
  }

  /**
   * The commit on ENTER, corrected: insert the picked candidate over the span
   * from its trigger to the cursor, never a sentinel. Then abort.
   */
  function Commit(cfg: Config, s: Session, p: Span): (r: Session)
    requires Wf(s)
    ensures Wf(r) && r.phase == Void && !r.popup && r.idx == -1 && r.bestMatches == s.bestMatches
    ensures Pick(s.bestMatches, s.idx, cfg.maxMatch).None? ==> r.area == s.area
    ensures Pick(s.bestMatches, s.idx, cfg.maxMatch).Some? ==>
      r.area == InsertInto(s.area.text, InsertionText(Choice(Pick(s.bestMatches, s.idx, cfg.maxMatch).value)).value,
                           p.start, s.area.cursor)
  {
    var area := match Pick(s.bestMatches, s.idx, cfg.maxMatch)
      case None => s.area
      case Some(c) => InsertInto(s.area.text, InsertionText(Choice(c)).value, p.start, s.area.cursor);
    Abort(s.(area := area))
  }

  /**
   * The entry the commit as written takes: the selection unless it equals
   * `_maxMatch`, otherwise the list's first entry, whatever it is.
   */
  function Taken(s: Session, maxMatch: int): (r: Option<Entry>)
    requires Wf(s)
    ensures r.None? <==> |s.bestMatches| == 0
    ensures s.idx > -1 && s.idx != maxMatch ==> r == Some(s.bestMatches[s.idx])
    ensures !(s.idx > -1 && s.idx != maxMatch) && r.Some? ==> r.value == s.bestMatches[0]
  {
    if s.idx > -1 && s.idx != maxMatch then Some(s.bestMatches[s.idx])
    else if |s.bestMatches| > 0 then Some(s.bestMatches[0])
    else None
  }

  /**
   * The commit as written: the taken entry's insertion text replaces the
   * span, and a sentinel's insertion text throws before anything changes.
   * Then abort.
   */
  function CommitAsWritten(cfg: Config, s: Session, p: Span): (r: Outcome<Session>)
    requires Wf(s)
    ensures r.Thrown? <==>
      var selected := s.idx > -1 && s.idx != cfg.maxMatch;
      (selected && !s.bestMatches[s.idx].Choice?) || (!selected && |s.bestMatches| > 0 && !s.bestMatches[0].Choice?)
    ensures r.Thrown? ==> r.state == s && r.message == InsertionText(Taken(s, cfg.maxMatch).value).message
    ensures r.Done? ==>
      && Wf(r.state) && r.state.phase == Void && r.state.idx == -1 && !r.state.popup
      && r.state.template.None? && r.state.source.None? && r.state.bestMatches == s.bestMatches
    ensures r.Done? && Taken(s, cfg.maxMatch).None? ==> r.state.area == s.area
    ensures r.Done? && Taken(s, cfg.maxMatch).Some? ==>
      r.state.area == InsertInto(s.area.text, InsertionText(Taken(s, cfg.maxMatch).value).value, p.start, s.area.cursor)
  {
    match Taken(s, cfg.maxMatch)
    case None => Done(Abort(s))
    case Some(e) =>
      match InsertionText(e)
      case Failure(m) => Thrown(s, m)
      case Success(t) => Done(Abort(s.(area := InsertInto(s.area.text, t, p.start, s.area.cursor))))
  }

  /**
   * Wherever the commit as written succeeds it does what the corrected one
   * does: the two differ only where the written one throws.
   */
  lemma CommitsAgree(cfg: Config, s: Session, p: Span)
    requires Wf(s)
    ensures CommitAsWritten(cfg, s, p).Done? ==> CommitAsWritten(cfg, s, p).state == Commit(cfg, s, p)
  {
    if CommitAsWritten(cfg, s, p).Done? && |s.bestMatches| > 0 && !(s.idx > -1 && s.idx != cfg.maxMatch) {
      assert s.bestMatches[0].Choice?;
    }
  }

  /** The message JavaScript gives when `this.source` is null. */
  const NullSourceMessage := "Cannot read properties of null (reading 'complete')"

  /**
   * The refresh step of `handleKeyup`: drop the selection, ask the source for
   * the partial's completions and render them into the popup, or keep looking
   * with the popup hidden when there are none. Without a source (a span
   * entered through the trigger combination) the call throws; so does
   * rendering a list holding an entry whose `getElement` fails, after the
   * list is stored and the entries before it are rendered, but before the
   * popup is shown or the input forgotten.
   */
  function Refresh(cfg: Config, s: Session, p: Span, b: Build): (r: Outcome<Session>)
    requires Wf(s) && s.phase != Void
    ensures Wf(r.state) && r.state.idx == -1 && r.state.area == s.area
    ensures s.source.None? ==> r == Thrown(s.(idx := -1), NullSourceMessage)
    ensures s.source.Some? ==>
      var bm := Complete(cfg.search, s.source.value, p.text);
      && r.state.bestMatches == bm
      && (r.Thrown? <==> Unrenderable(bm, b))
      && (r.Thrown? ==> r.state.phase == s.phase && r.state.popup == s.popup && r.state.hasInput == s.hasInput)
      && (r.Thrown? ==>
            && r.state.shown < |bm| && RenderFailure(bm[r.state.shown], b).Some?
            && forall j :: 0 <= j < r.state.shown ==> RenderFailure(bm[j], b).None?)
      && (r.Done? ==>
            && r.state.shown == |bm|
            && (r.state.popup <==> |bm| > 0) && !r.state.hasInput
            && (|bm| > 0 ==> r.state.phase == s.phase)
            && (|bm| == 0 ==> r.state.phase == Typing))
  {
    var s' := s.(idx := -1);
    match s'.source
    case None => Thrown(s', NullSourceMessage)
    case Some(src) =>
      var bm := Complete(cfg.search, src, p.text);
      if |bm| > 0 then
        match FirstWhere(bm, (e: Entry) => RenderFailure(e, b).Some?)
        case Some(k) => Thrown(s'.(bestMatches := bm, shown := k), RenderFailure(bm[k], b).value)
        case None => Done(s'.(bestMatches := bm, shown := |bm|, popup := true, hasInput := false))
      else Done(s'.(bestMatches := bm, shown := 0, phase := Typing, popup := false, hasInput := false))
  }

  /**
   * The first part of `handleKeyup`: escape aborts, then fresh input while
   * VOID looks for a trigger ending at the cursor.
   */
  function Arrive(cfg: Config, s: Session, key: int): (r: Session)
    requires Wf(s)
    ensures Wf(r) && r.area == s.area && r.hasInput == s.hasInput
    ensures key != KeyEscape && s.phase != Void ==> r == s
    ensures key == KeyEscape && !s.hasInput ==> r == Abort(s)
  {
    var s1 := if key == KeyEscape then Abort(s) else s;
    if s1.hasInput && s1.phase == Void then Detect(cfg, s1) else s1
  }

  /**
   * `handleKeyup(event)` for key code `key`, with the ENTER commit of build
   * `b` (`AsWritten` is the program): escape aborts; fresh input while VOID
   * looks for a trigger ending at the cursor; then, inside a span, a cursor
   * before the anchor aborts, a lost span returns to VOID, ENTER commits,
   * UP/DOWN without input move the selection, and anything else refreshes
   * the list. Input is forgotten on every normal return except the lost-span
   * one.
   */
  function HandleKeyup(cfg: Config, s: Session, key: int, b: Build): (r: Outcome<Session>)
    requires Wf(s)
    ensures Wf(r.state)
    ensures key != KeyEnter ==> r.state.area == s.area
    ensures key == KeyEscape && !s.hasInput ==>
      r.Done? && r.state.phase == Void && r.state.idx == -1 && !r.state.popup && r.state.bestMatches == s.bestMatches
    ensures s.phase != Void && key != KeyEscape ==>
      (r.state.phase == Void <==>
        || s.area.cursor < s.matchedPosition
        || ExtractPattern(s.area.text, s.area.cursor, s.template.value).None?
        || (key == KeyEnter && r.Done?))
    ensures s.phase != Void && key != KeyEscape && s.area.cursor < s.matchedPosition ==>
      r == Done(Abort(s).(hasInput := false))
    ensures s.phase != Void && key != KeyEscape && s.area.cursor >= s.matchedPosition
            && ExtractPattern(s.area.text, s.area.cursor, s.template.value).None? ==>
      r == Done(s.(phase := Void))
    ensures s.phase != Void && !s.hasInput && (key == KeyUp || key == KeyDown) && s.area.cursor >= s.matchedPosition
            && ExtractPattern(s.area.text, s.area.cursor, s.template.value).Some? ==>
      r.Done? && r.state.phase == Selecting && r.state.bestMatches == s.bestMatches
    ensures s.phase != Void && !s.hasInput && key == KeyDown && s.area.cursor >= s.matchedPosition
            && ExtractPattern(s.area.text, s.area.cursor, s.template.value).Some? ==>
      r == Done(Next(s.(phase := Selecting)).(hasInput := false))
    ensures s.phase != Void && !s.hasInput && key == KeyUp && s.area.cursor >= s.matchedPosition
            && ExtractPattern(s.area.text, s.area.cursor, s.template.value).Some? ==>
      r == Done(Previous(s.(phase := Selecting)).(hasInput := false))
    ensures r.Done? && r.state.hasInput ==> r.state.phase == Void && s.hasInput
    ensures r.Thrown? ==>
      if key == KeyEnter then b == AsWritten else r.state.source.None? || Unrenderable(r.state.bestMatches, b)
    ensures r.state.bestMatches != s.bestMatches ==> r.state.source.Some? && r.state.phase != Void && r.state.idx == -1
  {
    var s2 := Arrive(cfg, s, key);
    if s2.phase == Void then Done(s2.(hasInput := false))
    else if s2.area.cursor < s2.matchedPosition then Done(Abort(s2).(hasInput := false))
    else match ExtractPattern(s2.area.text, s2.area.cursor, s2.template.value)
      case None => Done(s2.(phase := Void))
      case Some(p) => Respond(cfg, s2, key, p, b)
  }

  /**
   * `handleKeyup` once the span `p` is known: ENTER commits, UP and DOWN
   * move the selection, any other key refreshes. Only a successful commit
   * leaves the span.
   */
  function Respond(cfg: Config, s: Session, key: int, p: Span, b: Build): (r: Outcome<Session>)
    requires Wf(s) && s.phase != Void
    ensures Wf(r.state)
    ensures key != KeyEnter ==> r.state.area == s.area
    ensures r.state.phase == Void <==> key == KeyEnter && r.Done?
    ensures !s.hasInput && (key == KeyUp || key == KeyDown) ==>
      r.Done? && r.state.phase == Selecting && r.state.bestMatches == s.bestMatches
    ensures !s.hasInput && key == KeyDown ==> r == Done(Next(s.(phase := Selecting)).(hasInput := false))
    ensures !s.hasInput && key == KeyUp ==> r == Done(Previous(s.(phase := Selecting)).(hasInput := false))
    ensures r.Done? ==> !r.state.hasInput
    ensures r.Thrown? ==>
      if key == KeyEnter then b == AsWritten else r.state.source.None? || Unrenderable(r.state.bestMatches, b)
    ensures r.state.bestMatches != s.bestMatches ==> r.state.source.Some? && r.state.phase != Void && r.state.idx == -1
  {
    if key == KeyEnter then
      match b
      case Corrected => Done(Commit(cfg, s, p).(hasInput := false))
      case AsWritten =>
        match CommitAsWritten(cfg, s, p)
        case Done(t) => Done(t.(hasInput := false))
        case Thrown(t, m) => Thrown(t, m)
    else if key == KeyUp && !s.hasInput then Done(Previous(s.(phase := Selecting)).(hasInput := false))
    else if key == KeyDown && !s.hasInput then Done(Next(s.(phase := Selecting)).(hasInput := false))
    else Refresh(cfg, s, p, b)
  }

  // ---------------------------------------------------------------------------
  // Keyup behaviour, case by case
  // ---------------------------------------------------------------------------

  /**
   * Input while VOID whose trigger ends at the cursor enters PATTERN with the
   * first such template and its source, anchors the span at the cursor and
   * lists that source's completions of the partial.
   */
  lemma KeyupDetectsTrigger(cfg: Config, s: Session, key: int, i: nat, p: Span, b: Build)
    requires Wf(s) && s.hasInput && s.phase == Void && key != KeyEscape && key != KeyEnter
    requires FirstWhere(Templates(cfg.sources), (t: Template) => MatchesTemplate(t.pat, s.area.text, s.area.cursor)) == Some(i)
    requires ExtractPattern(s.area.text, s.area.cursor, Templates(cfg.sources)[i]) == Some(p)
    ensures var r := HandleKeyup(cfg, s, key, b);
      var bm := Complete(cfg.search, cfg.sources[i], p.text);
      && r.state.phase == Typing
      && r.state.template == Some(Templates(cfg.sources)[i])
      && r.state.source == Some(cfg.sources[i])
      && r.state.matchedPosition == s.area.cursor
      && r.state.bestMatches == bm && r.state.idx == -1
      && (r.Thrown? <==> Unrenderable(bm, b))
      && (r.Done? ==> (r.state.popup <==> |bm| > 0) && !r.state.hasInput)
  {
  }

  /** ENTER inside a span reaches the commit with the session unchanged. */
  lemma KeyupEnterResponds(cfg: Config, s: Session, p: Span, b: Build)
    requires Wf(s) && s.phase != Void && s.area.cursor >= s.matchedPosition
    requires ExtractPattern(s.area.text, s.area.cursor, s.template.value) == Some(p)
    ensures HandleKeyup(cfg, s, KeyEnter, b) == Respond(cfg, s, KeyEnter, p, b)
  {
    assert Arrive(cfg, s, KeyEnter) == s;
  }

  /**
   * ENTER inside a span, as written: the taken entry's text replaces the span
   * from its trigger to the cursor and the cursor ends right after it, or,
   * when that entry is a sentinel, the handler throws with the state
   * untouched.
   */
  lemma KeyupEnterCommits(cfg: Config, s: Session, p: Span)
    requires Wf(s) && s.phase != Void && s.area.cursor >= s.matchedPosition
    requires ExtractPattern(s.area.text, s.area.cursor, s.template.value) == Some(p)
    ensures var r := HandleKeyup(cfg, s, KeyEnter, AsWritten);
      var e := Taken(s, cfg.maxMatch);
      && (r.Thrown? <==> e.Some? && !e.value.Choice?)
      && (r.Thrown? ==> r.state == s)
      && (r.Done? ==> r.state.phase == Void && !r.state.popup && r.state.template.None? && r.state.bestMatches == s.bestMatches)
      && (r.Done? && e.None? ==> r.state.area == s.area)
      && (r.Done? && e.Some? ==>
            var text := InsertionText(e.value).value;
            && r.state.area.text == s.area.text[..p.start] + text + s.area.text[s.area.cursor..]
            && r.state.area.cursor == p.start + |text|)
  {
    KeyupEnterResponds(cfg, s, p, AsWritten);
    var c := CommitAsWritten(cfg, s, p);
    var e := Taken(s, cfg.maxMatch);
    if c.Done? && e.Some? {
      assert p.start <= s.area.cursor;
      SpliceParts(s.area.text, InsertionText(e.value).value, p.start, s.area.cursor);
    }
  }

  /**
   * ENTER inside a span, corrected: it never throws, and the picked
   * candidate's text replaces the span, the cursor ending right after it.
   */
  lemma KeyupEnterCommitsCorrected(cfg: Config, s: Session, p: Span)
    requires Wf(s) && s.phase != Void && s.area.cursor >= s.matchedPosition
    requires ExtractPattern(s.area.text, s.area.cursor, s.template.value) == Some(p)
    ensures var r := HandleKeyup(cfg, s, KeyEnter, Corrected);
      var c := Pick(s.bestMatches, s.idx, cfg.maxMatch);
      && r.Done? && r.state.phase == Void && r.state.bestMatches == s.bestMatches
      && (c.None? ==> r.state.area == s.area)
      && (c.Some? ==>
            var text := InsertionText(Choice(c.value)).value;
            && r.state.area.text == s.area.text[..p.start] + text + s.area.text[s.area.cursor..]
            && r.state.area.cursor == p.start + |text|)
  {
    KeyupEnterResponds(cfg, s, p, Corrected);
    var c := Pick(s.bestMatches, s.idx, cfg.maxMatch);
    if c.Some? {
      assert p.start <= s.area.cursor;
      SpliceParts(s.area.text, InsertionText(Choice(c.value)).value, p.start, s.area.cursor);
    }
  }

  /** The spliced text is the part before the span, the inserted text, and the part after the cursor. */
  lemma SpliceParts(buffer: string, text: string, start: nat, cursor: nat)
    requires start <= cursor <= |buffer|
    ensures var e := InsertInto(buffer, text, start, cursor);
      e.text == buffer[..start] + text + buffer[cursor..] && e.cursor == start + |text|
  {
    var e := InsertInto(buffer, text, start, cursor);
    assert e.text == e.text[..start] + e.text[start..e.cursor] + e.text[e.cursor..];
  }

  /** Any other key inside a span refreshes the list from the source. */
  lemma KeyupRefreshes(cfg: Config, s: Session, key: int, p: Span, b: Build)
    requires Wf(s) && s.phase != Void && s.area.cursor >= s.matchedPosition
    requires key != KeyEscape && key != KeyEnter && !((key == KeyUp || key == KeyDown) && !s.hasInput)
    requires ExtractPattern(s.area.text, s.area.cursor, s.template.value) == Some(p)
    ensures HandleKeyup(cfg, s, key, b) == Refresh(cfg, s, p, b)
  {
  }

  /**
   * The trigger combination enters PATTERN without a source, so the next
   * ordinary keyup throws: in a fresh controller over the text `[[`, Ctrl+Space
   * followed by any other key ends in the null-source error, in either build.
   */
  lemma TriggerComboLeavesNoSource(search: Search, b: Build)
    ensures var cfg := Config([Filtering(Some(DefaultTemplate), false, 5)], 5, "^ ", search);
      var s := HandleKeypress(cfg, Initial(Edit("[[", 2)), KeyEvent(KeySpace, KeySpace, true, false, false));
      && s.phase == Typing && s.source.None?
      && HandleKeyup(cfg, s, KeySpace, b) == Thrown(s.(idx := -1), NullSourceMessage)
  {
    var cfg := Config([Filtering(Some(DefaultTemplate), false, 5)], 5, "^ ", search);
    var e := KeyEvent(KeySpace, KeySpace, true, false, false);
    DefaultTrigger(e);
    ExtractOpenBrackets();
    assert Templates(cfg.sources) == [DefaultTemplate];
    var s := HandleKeypress(cfg, Initial(Edit("[[", 2)), e);
    assert s == Initial(Edit("[[", 2)).(template := Some(DefaultTemplate), phase := Typing);
    KeyupRefreshes(cfg, s, KeySpace, Span("", 0, 2), b);
  }

  /**
   * The outline popup never shows as written: besides the sentinels a PDF
   * source lists only outline entries, which have no `getElement`, so a
   * refresh that finds any candidate throws before the popup is shown.
   * Corrected, the same refresh shows the list whenever it is not empty.
   */
  lemma OutlineNeverRenders(cfg: Config, s: Session, p: Span)
    requires Wf(s) && s.phase != Void && s.source.Some? && s.source.value.PdfNames?
    ensures var bm := Complete(cfg.search, s.source.value, p.text);
      && (Refresh(cfg, s, p, AsWritten).Thrown? <==> exists k :: 0 <= k < |bm| && bm[k].Choice?)
      && Refresh(cfg, s, p, Corrected).Done?
      && (Refresh(cfg, s, p, Corrected).state.popup <==> |bm| > 0)
  {
    CompleteOffersMatches(cfg.search, s.source.value, p.text);
  }

  /**
   * After the written refresh of a PDF source has thrown, the popup holds only
   * the sentinels listed before the first outline entry, and the selection
   * steps over those children alone: no number of DOWN presses selects a
   * candidate, so a later ENTER can only take a sentinel.
   */
  lemma OutlineNeverSelected(cfg: Config, s: Session, p: Span, n: nat)
    requires Wf(s) && s.phase != Void && s.source.Some? && s.source.value.PdfNames?
    requires Refresh(cfg, s, p, AsWritten).Thrown?
    ensures var t := NextN(Refresh(cfg, s, p, AsWritten).state, n);
      t.idx == -1 || !t.bestMatches[t.idx].Choice?
  {
    var r := Refresh(cfg, s, p, AsWritten).state;
    CompleteOffersMatches(cfg.search, s.source.value, p.text);
    var t := NextN(r, n);
    if t.idx != -1 {
      assert t.idx < r.shown && t.bestMatches == r.bestMatches;
      assert RenderFailure(r.bestMatches[t.idx], AsWritten).None?;
    }
  }

  // ---------------------------------------------------------------------------
  // The commit as written, against the corrected one
  // ---------------------------------------------------------------------------

  /**
   * With no selection the written ENTER takes the list's first entry. When no
   * candidate starts with the partial that entry is the spacer, so the keyup
   * throws where the corrected one inserts a candidate. Inside a span ENTER
   * reaches this step with the session unchanged (`KeyupEnterResponds`).
   */
  lemma EnterThrowsOnLeadingSpacer(cfg: Config, s: Session, p: Span, k: nat)
    requires Wf(s) && s.phase != Void
    requires s.idx == -1 && 0 < |s.bestMatches| && s.bestMatches[0] == Spacer
    requires k < |s.bestMatches| && s.bestMatches[k].Choice?
    ensures Respond(cfg, s, KeyEnter, p, AsWritten) == Thrown(s, "spacer items cannot be inserted")
    ensures Respond(cfg, s, KeyEnter, p, Corrected).Done? && Pick(s.bestMatches, s.idx, cfg.maxMatch).Some?
  {
  }

  /** No candidate starts with the partial, so the ranked list (without overflow) opens with the spacer. */
  lemma RankLeadsWithSpacer(cs: seq<Candidate>, partial: string, caseSensitive: bool, limit: int, maximumMatches: int)
    requires forall i :: 0 <= i < |cs| ==> !StartsWith(cs[i].title, partial, caseSensitive)
    requires MatchCount(cs, Classifier(Query(partial, caseSensitive))) <= Cap(EffectiveLimit(limit, maximumMatches))
    ensures Rank(cs, partial, caseSensitive, limit, maximumMatches)[0] == Spacer
  {
    NoPrefixSelected(cs, Query(partial, caseSensitive));
  }

  lemma {:induction false} NoPrefixSelected(cs: seq<Candidate>, q: Query)
    requires forall i :: 0 <= i < |cs| ==> !StartsWith(cs[i].title, q.partial, q.caseSensitive)
    ensures Select(cs, Classifier(q), Prefix) == []
    decreases |cs|
  {
    if |cs| > 0 {
      NoPrefixSelected(cs[1..], q);
    }
  }

  /**
   * The corrected commit never throws and never inserts a sentinel: it
   * inserts the selected candidate, or the first candidate of the list.
   */
  lemma CommitInsertsCandidate(cfg: Config, s: Session, p: Span)
    requires Wf(s) && p.start <= s.area.cursor
    ensures var c := Pick(s.bestMatches, s.idx, cfg.maxMatch);
      c.Some? ==> Choice(c.value) in s.bestMatches && InsertionText(Choice(c.value)).Success?
    ensures var c := Pick(s.bestMatches, s.idx, cfg.maxMatch);
      c.Some? && s.idx == -1 ==> exists k :: 0 <= k < |s.bestMatches| && s.bestMatches[k] == Choice(c.value)
                                   && forall j :: 0 <= j < k ==> !s.bestMatches[j].Choice?
  {
  }
}

=== FILE: items.dfy ===
/**
 * Completion items: the candidates a source offers, the two sentinels a ranking
 * adds, the text each item splices into the buffer, and the two splicing
 * routines (`insertInto` and the legacy `_insertInto`).
 */
module Items {
  import opened Wrappers
  import opened Text
  import opened Pattern

  /**
   * A selectable candidate.
   * `Plain` is `CompletedItem`, `Tiddler` is `CompletedTiddlerItem`,
   * `OutlineEntry` is `CompletedPDFOutlineItem` (a destination of the named PDF),
   * `Reference` is `CompletedPaperReferenceItem` (a cited paper; `tiddlerTitle`
   * is the wiki entry it resolved to, `None` when the lookup found nothing).
   */
  datatype Candidate =
    | Plain(title: string)
    | Tiddler(title: string)
    | OutlineEntry(title: string, pdfName: string, destination: string)
    | Reference(title: string, influential: bool, tiddlerTitle: Option<string>)

  /** A row of a ranked list: a candidate, the spacer between the two match groups, or the "more" ellipsis. */
  datatype Entry = Choice(item: Candidate) | Spacer | Ellipsis

  /**
   * `_next` over a popup of `count` elements: the selection moves down one,
   * and past the last element back to none (-1).
   */
  function NextIndex(idx: int, count: nat): (r: int)
    requires -1 <= idx < count
    ensures -1 <= r < count
    ensures r == -1 <==> idx == count - 1
    ensures r != -1 ==> r == idx + 1
  {
    if idx < count - 1 then idx + 1 else -1
  }

  /** `_previous`: from none to the last element, otherwise up one (from the first back to none). */
  function PreviousIndex(idx: int, count: nat): (r: int)
    requires -1 <= idx < count
    ensures -1 <= r < count
    ensures idx == -1 ==> r == count - 1
    ensures idx != -1 ==> r == idx - 1
  {
    if idx > -1 then idx - 1 else count - 1
  }

  /** Each step undoes the other, so the selection cycles through the elements and "none". */
  lemma SelectionStepsInverse(idx: int, count: nat)
    requires -1 <= idx < count
    ensures PreviousIndex(NextIndex(idx, count), count) == idx
    ensures NextIndex(PreviousIndex(idx, count), count) == idx
  {
  }

  /** JavaScript's string conversion of a possibly-null title: `null` prints as `"null"`. */
  function NullableText(s: Option<string>): string {
    s.GetOr("null")
  }

  /**
   * `getInsertionText()` of each variant. The sentinels throw: a spacer or an
   * ellipsis is never insertable.
   */
  function InsertionText(e: Entry): (r: Result<string>)
    ensures r.Failure? <==> !e.Choice?
    ensures e.Choice? && e.item.Plain? ==> r == Success(e.item.title)
    ensures e.Choice? && !e.item.Plain? ==> IsLink(r.value)
  {
    match e
    case Spacer => Failure("spacer items cannot be inserted")
    case Ellipsis => Failure("ellipsis items cannot be inserted")
    case Choice(c) =>
      match c
      case Plain(title) => Success(title)
      case Tiddler(title) => Success("[](#" + title + ")")
      case OutlineEntry(_, pdfName, destination) => Success("[](" + pdfName + "#" + destination + ")")
      case Reference(title, _, tiddlerTitle) => Success("[" + title + "](#" + NullableText(tiddlerTitle) + ")")
  }

  /** What JavaScript says when a rendered entry lacks `getElement`, or reads `startsWith` of a null title. */
  const NoGetElementMessage := "currentMatch.getElement is not a function"
  const NullTitleMessage := "Cannot read properties of null (reading 'startsWith')"

  /**
   * Why `getElement(partial)` fails for an entry, if it does. As written an
   * outline entry has no `getElement` at all: its constructor's prototype
   * never inherits from `CompletedItem`. Corrected, it renders as any other
   * item. A reference that resolved to no wiki entry fails in both builds,
   * when the renderer reads `startsWith` of its null title.
   */
  function RenderFailure(e: Entry, b: Build): (r: Option<string>)
    ensures r.Some? ==> e.Choice? && (e.item.OutlineEntry? || e.item.Reference?)
    ensures e.Choice? && e.item.OutlineEntry? ==> (r.Some? <==> b == AsWritten)
    ensures e.Choice? && e.item.Reference? ==> (r.Some? <==> e.item.tiddlerTitle.None?)
  {
    match e
    case Choice(OutlineEntry(_, _, _)) => if b == AsWritten then Some(NoGetElementMessage) else None
    case Choice(Reference(_, _, None)) => Some(NullTitleMessage)
    case _ => None
  }

  /** Some entry of the list fails to render. */
  predicate Unrenderable(es: seq<Entry>, b: Build) {
    exists k :: 0 <= k < |es| && RenderFailure(es[k], b).Some?
  }

  /** The shape of a markdown link `[caption](target)`, as far as a reader at either end can tell. */
  predicate IsLink(s: string) {
    |s| >= 4 && s[0] == '[' && s[|s| - 1] == ')'
  }

  /** The markdown link `[caption](target)`. */
  function Link(caption: string, target: string): string {
    "[" + caption + "](" + target + ")"
  }

  /** Reads back a link whose caption is `labelLength` characters long, if `s` has that shape. */
  function ParseLink(s: string, labelLength: nat): (r: Option<(string, string)>)
    ensures r.Some? ==> s == Link(r.value.0, r.value.1) && |r.value.0| == labelLength
  {
    if |s| >= labelLength + 4 && s[0] == '[' && s[labelLength + 1..labelLength + 3] == "](" && s[|s| - 1] == ')' then
      var caption := s[1..labelLength + 1];
      var target := s[labelLength + 3..|s| - 1];
      assert s == Link(caption, target) by {
        assert s == s[..1] + s[1..labelLength + 1] + s[labelLength + 1..labelLength + 3] + s[labelLength + 3..|s| - 1] + s[|s| - 1..];
      }
      Some((caption, target))
    else None
  }

  /**
   * The insertion text of every link-producing item reads back as a link whose
   * caption and target are the item's: an empty caption and `#title` for a tiddler,
   * `pdf#destination` for an outline entry, the title and `#` plus the resolved
   * wiki entry (or `null`) for a reference.
   */
  lemma {:induction false} InsertionLinkRoundTrip(c: Candidate)
    requires !c.Plain?
    ensures c.Tiddler? ==> ParseLink(InsertionText(Choice(c)).value, 0) == Some(("", "#" + c.title))
    ensures c.OutlineEntry? ==> ParseLink(InsertionText(Choice(c)).value, 0) == Some(("", c.pdfName + "#" + c.destination))
    ensures c.Reference? ==>
      ParseLink(InsertionText(Choice(c)).value, |c.title|) == Some((c.title, "#" + NullableText(c.tiddlerTitle)))
  {
    var s := InsertionText(Choice(c)).value;
    match c
    case Tiddler(t) =>
      assert s == Link("", "#" + t);
      LinkParses("", "#" + t);
    case OutlineEntry(_, p, d) =>
      assert s == Link("", p + "#" + d);
      LinkParses("", p + "#" + d);
    case Reference(t, _, tt) =>
      assert s == Link(t, "#" + NullableText(tt));
      LinkParses(t, "#" + NullableText(tt));
  }

  /** A link built from a caption and a target parses back to them, given the caption's length. */
  lemma LinkParses(caption: string, target: string)
    ensures ParseLink(Link(caption, target), |caption|) == Some((caption, target))
  {
    var s := Link(caption, target);
    assert s[1..|caption| + 1] == caption;
    assert s[|caption| + 1..|caption| + 3] == "](";
    assert s[|caption| + 3..|s| - 1] == target;
  }

  /** The buffer after a splice, and the cursor placed after the inserted text. */
  datatype Edit = Edit(text: string, cursor: nat)

  function Min(a: nat, b: nat): nat {
    if a <= b then a else b
  }

  /**
   * `insertInto(node, text, posBefore, posAfter, template)`: replaces
   * `[posBefore, posAfter)` by `text` and moves the cursor after it. The
   * template's delimiters are read but not used, so they are not parameters here.
   */
  function InsertInto(buffer: string, text: string, posBefore: nat, posAfter: nat): (r: Edit)
    ensures r.cursor <= |r.text|
    ensures posBefore <= posAfter <= |buffer| ==>
      && |r.text| == |buffer| - (posAfter - posBefore) + |text|
      && r.cursor == posBefore + |text|
      && r.text[..posBefore] == buffer[..posBefore]
      && r.text[posBefore..r.cursor] == text
      && r.text[r.cursor..] == buffer[posAfter..]
  {
    var spliced := Slice(buffer, 0, posBefore) + text + Slice(buffer, posAfter, |buffer|);
    Edit(spliced, Min(posBefore + |text|, |spliced|))
  }

  /** The legacy opening delimiter: `template.start`, or `"[["` when it is falsy. */
  function StartDelimiter(t: Template): string {
    if |t.start| > 0 then t.start else "[["
  }

  /** The legacy closing delimiter: `template.end`, or `"]]"` when it is falsy. */
  function EndDelimiter(t: Template): string {
    if |t.end| > 0 then t.end else "]]"
  }

  /**
   * The legacy `_insertInto`: like `insertInto`, but the text is written between
   * the template's `start` and `end` delimiters and the cursor lands after `end`.
   */
  function InsertWrapped(buffer: string, text: string, posBefore: nat, posAfter: nat, t: Template): (r: Edit)
    ensures r.cursor <= |r.text|
    ensures posBefore <= posAfter <= |buffer| ==>
      && r.cursor == posBefore + |StartDelimiter(t)| + |text| + |EndDelimiter(t)|
      && r.text[..posBefore] == buffer[..posBefore]
      && r.text[posBefore..r.cursor] == StartDelimiter(t) + text + EndDelimiter(t)
      && r.text[r.cursor..] == buffer[posAfter..]
  {
    var sStart := StartDelimiter(t);
    var sEnd := EndDelimiter(t);
    var wrapped := sStart + text + sEnd;
    var spliced := Slice(buffer, 0, posBefore) + wrapped + Slice(buffer, posAfter, |buffer|);
    Edit(spliced, Min(posBefore + |text| + |sStart| + |sEnd|, |spliced|))
  }

  /** The legacy splice is the plain splice of the delimited text, for every input. */
  lemma WrappedIsDelimitedInsert(buffer: string, text: string, posBefore: nat, posAfter: nat, t: Template)
    ensures InsertWrapped(buffer, text, posBefore, posAfter, t)
         == InsertInto(buffer, StartDelimiter(t) + text + EndDelimiter(t), posBefore, posAfter)
  {
  }

  // ---------------------------------------------------------------------------
  // First-match search over a list
  // ---------------------------------------------------------------------------

  /** The first index whose element satisfies `p`, if any (the `for ... break` loops of both controllers). */
  function FirstWhere<T>(xs: seq<T>, p: T -> bool): (r: Option<nat>)
    ensures r.Some? ==> r.value < |xs| && p(xs[r.value]) && forall j :: 0 <= j < r.value ==> !p(xs[j])
    ensures r.None? ==> forall j :: 0 <= j < |xs| ==> !p(xs[j])
  {
    if |xs| == 0 then None
    else if p(xs[0]) then Some(0)
    else match FirstWhere(xs[1..], p)
      case None => None
      case Some(k) => Some(k + 1)
  }

  /** The first template whose span encloses the cursor. */
  function FirstExtracting(ts: seq<Template>, text: string, pos: nat): (r: Option<nat>)
    ensures r.Some? ==>
      && r.value < |ts| && ExtractPattern(text, pos, ts[r.value]).Some?
      && forall j :: 0 <= j < r.value ==> ExtractPattern(text, pos, ts[j]).None?
    ensures r.None? ==> forall j :: 0 <= j < |ts| ==> ExtractPattern(text, pos, ts[j]).None?
  {
    FirstWhere(ts, (t: Template) => ExtractPattern(text, pos, t).Some?)
  }

  /** The elements satisfying `p`, in order (`Array.prototype.filter`). */
  function Keep<T>(xs: seq<T>, p: T -> bool): (r: seq<T>)
    ensures |r| <= |xs|
    ensures forall i :: 0 <= i < |r| ==> r[i] in xs && p(r[i])
  {
    if |xs| == 0 then [] else (if p(xs[0]) then [xs[0]] else []) + Keep(xs[1..], p)
  }

  /** Filtering a concatenation filters each part. */
  lemma {:induction false} KeepAppend<T>(a: seq<T>, b: seq<T>, p: T -> bool)
    ensures Keep(a + b, p) == Keep(a, p) + Keep(b, p)
  {
    if |a| > 0 {
      KeepAppend(a[1..], b, p);
      assert (a + b)[0] == a[0] && (a + b)[1..] == a[1..] + b;
    } else {
      assert a + b == b;
    }
  }

  /** The defined results of `f` over `xs`, in order (a loop that pushes a result only for some elements). */
  function Collect<A, B>(xs: seq<A>, f: A -> Option<B>): (r: seq<B>)
    ensures |r| <= |xs|
  {
    if |xs| == 0 then []
    else (match f(xs[0]) case None => [] case Some(y) => [y]) + Collect(xs[1..], f)
  }

  /** Collecting over a concatenation collects over each part. */
  lemma {:induction false} CollectAppend<A, B>(a: seq<A>, b: seq<A>, f: A -> Option<B>)
    ensures Collect(a + b, f) == Collect(a, f) + Collect(b, f)
  {
    if |a| > 0 {
      CollectAppend(a[1..], b, f);
      assert (a + b)[0] == a[0] && (a + b)[1..] == a[1..] + b;
    } else {
      assert a + b == b;
    }
  }

  /** Collecting over one element yields its result, if any. */
  lemma CollectSingle<A, B>(x: A, f: A -> Option<B>)
    ensures Collect([x], f) == match f(x) case None => [] case Some(y) => [y]
  {
    assert [x][1..] == [];
  }
}

=== FILE: keys.dfy ===
/** Key events and the trigger key-combination matcher (`keyMatchGenerator`). */
module Keys {

  const KeyEnter := 13
  const KeyEscape := 27
  const KeySpace := 32
  const KeyUp := 38
  const KeyDown := 40

  /** The fields of a DOM keyboard event the controllers read; a code of 0 stands for an absent one. */
  datatype KeyEvent = KeyEvent(keyCode: int, which: int, ctrlKey: bool, shiftKey: bool, altKey: bool)

  /** `event.keyCode || event.which`: the key code, falling back to `which` when `keyCode` is falsy. */
  function KeyOf(e: KeyEvent): int {
    if e.keyCode != 0 then e.keyCode else e.which
  }

  /**
   * What one character of a combination asks of an event: `^` the control key,
   * `+` the shift key, `!` the alt key, anything else that key's code.
   */
  predicate SingleMatch(c: char, e: KeyEvent) {
    if c == '^' then e.ctrlKey
    else if c == '+' then e.shiftKey
    else if c == '!' then e.altKey
    else KeyOf(e) == c as int
  }

  /**
   * The predicate built by `keyMatchGenerator(combination)`, applied to `e`:
   * the matchers of the combination's characters are tried in order and the
   * first failure rejects the event.
   */
  function KeyMatches(combination: string, e: KeyEvent): (r: bool)
    ensures r <==> forall i :: 0 <= i < |combination| ==> SingleMatch(combination[i], e)
  {
    if |combination| == 0 then true
    else if !SingleMatch(combination[0], e) then false
    else KeyMatches(combination[1..], e)
  }

  /** The default combination `"^ "` is Ctrl+Space. */
  lemma DefaultTrigger(e: KeyEvent)
    ensures KeyMatches("^ ", e) <==> e.ctrlKey && KeyOf(e) == KeySpace
  {
    assert "^ "[0] == '^' && "^ "[1] == ' ';
  }
}

=== FILE: legacy.dfy ===
/**
 * The older controller of the plugin directory: same VOID/PATTERN/SELECT
 * machine, but it recognises a trigger with a per-template character counter
 * fed by the last key pressed, filters the wiki's titles with a plain
 * contains test capped at five, and inserts the chosen title between the
 * template's delimiters.
 */
module Legacy {
  import opened Wrappers
  import opened Text
  import opened Pattern
  import opened Keys
  import opened Items
  import opened Sources

  /** `_maxMatch`, `_minPatLen`: fixed in the constructor. */
  const MaxMatch := 5
  const MinPatLen := 2

  /** The string `_findBestMatches` appends when more matches exist than it keeps. */
  const More := "..."

  // ---------------------------------------------------------------------------
  // _findBestMatches
  // ---------------------------------------------------------------------------

  /** The titles containing `pattern`, ignoring ASCII case, in input order. */
  function Matching(titles: seq<string>, pattern: string): (r: seq<string>)
    ensures |r| <= |titles|
    ensures forall i :: 0 <= i < |r| ==> r[i] in titles && Contains(r[i], pattern, false)
  {
    Keep(titles, (t: string) => Contains(t, pattern, false))
  }

  /** Filtering a concatenation filters each part. */
  lemma MatchingAppend(a: seq<string>, b: seq<string>, pattern: string)
    ensures Matching(a + b, pattern) == Matching(a, pattern) + Matching(b, pattern)
  {
    KeepAppend(a, b, (t: string) => Contains(t, pattern, false));
  }

  /** Filtering one title keeps it exactly when it contains the pattern. */
  lemma MatchingSingle(x: string, pattern: string)
    ensures Matching([x], pattern) == if Contains(x, pattern, false) then [x] else []
  {
    assert [x][1..] == [];
  }

  /** `nbMax !== undefined ? nbMax : this._maxMatch`: only an absent value falls back, 0 is honoured. */
  function Budget(nbMax: Option<int>): int {
    match nbMax
    case None => MaxMatch
    case Some(n) => n
  }

  /** The list `_findBestMatches` leaves: the matches up to the budget, then `"..."` if any match is left over. */
  function BestMatches(listChoice: seq<string>, pattern: string, nbMax: Option<int>): (r: seq<string>)
    ensures var cap := if Budget(nbMax) < 0 then 0 else Budget(nbMax);
      && |r| <= cap + 1
      && (forall i :: 0 <= i < |r| && r[i] != More ==> r[i] in listChoice && Contains(r[i], pattern, false))
      && (|Matching(listChoice, pattern)| > cap <==> |r| == cap + 1 && r[cap] == More)
  {
    var m := Matching(listChoice, pattern);
    var cap := if Budget(nbMax) < 0 then 0 else Budget(nbMax);
    if |m| <= cap then m else m[..cap] + [More]
  }

  /**
   * `_findBestMatches(listChoice, pattern, nbMax)`: scans the titles in order,
   * keeping those containing the pattern; once the budget is used up, the
   * next match adds `"..."` and ends the scan.
   */
  method FindBestMatches(listChoice: seq<string>, pattern: string, nbMax: Option<int>) returns (best: seq<string>)
    ensures best == BestMatches(listChoice, pattern, nbMax)
  {
    var cap := if Budget(nbMax) < 0 then 0 else Budget(nbMax);
    var nbMatch := 0;
    best := [];
    var i := 0;
    while i < |listChoice|
      invariant 0 <= i <= |listChoice|
      invariant best == Matching(listChoice[..i], pattern)
      invariant nbMatch == |best| <= cap
    {
      MatchingStep(listChoice, pattern, i);
      if Contains(listChoice[i], pattern, false) {
        if nbMatch >= Budget(nbMax) {
          OverflowAt(listChoice, pattern, nbMax, i);
          best := best + [More];
          return;
        } else {
          best := best + [listChoice[i]];
          nbMatch := nbMatch + 1;
        }
      }
      i := i + 1;
    }
    assert listChoice[..i] == listChoice;
  }

  /** Extending the scanned prefix by one title extends the matches by that title if it matches. */
  lemma MatchingStep(titles: seq<string>, pattern: string, i: nat)
    requires i < |titles|
    ensures Matching(titles[..i + 1], pattern)
         == Matching(titles[..i], pattern) + if Contains(titles[i], pattern, false) then [titles[i]] else []
  {
    MatchingAppend(titles[..i], [titles[i]], pattern);
    MatchingSingle(titles[i], pattern);
    assert titles[..i + 1] == titles[..i] + [titles[i]];
  }

  /** A match at `i` once the budget is used up by the matches before it: the list is those matches and `"..."`. */
  lemma OverflowAt(listChoice: seq<string>, pattern: string, nbMax: Option<int>, i: nat)
    requires i < |listChoice| && Contains(listChoice[i], pattern, false)
    requires |Matching(listChoice[..i], pattern)| == (if Budget(nbMax) < 0 then 0 else Budget(nbMax))
    ensures BestMatches(listChoice, pattern, nbMax) == Matching(listChoice[..i], pattern) + [More]
  {
    var before := Matching(listChoice[..i], pattern);
    MatchingStep(listChoice, pattern, i);
    MatchingAppend(listChoice[..i + 1], listChoice[i + 1..], pattern);
    assert listChoice == listChoice[..i + 1] + listChoice[i + 1..];
    var m := Matching(listChoice, pattern);
    assert m == before + [listChoice[i]] + Matching(listChoice[i + 1..], pattern);
    assert m[..|before|] == before;
  }

  // ---------------------------------------------------------------------------
  // The template.pos character matcher
  // ---------------------------------------------------------------------------

  /**
   * One step of a template's counter on the last key's character code `c`:
   * one further when `c` is the next trigger character, back to 0 otherwise
   * (also when the counter already stands at the trigger's end).
   */
  function Advance(pat: string, pos: nat, c: int): (r: nat)
    ensures r == 0 || r == pos + 1
    ensures r == pos + 1 <==> pos < |pat| && pat[pos] as int == c
  {
    if pos < |pat| && pat[pos] as int == c then pos + 1 else 0
  }

  /** The counter after a run of characters, each step as `Advance`. */
  function Feed(pat: string, pos: nat, cs: seq<int>): nat
    decreases |cs|
  {
    if |cs| == 0 then pos else Feed(pat, Advance(pat, pos, cs[0]), cs[1..])
  }

  /** The codes of a string's characters. */
  function Codes(s: string): (r: seq<int>)
    ensures |r| == |s| && forall i :: 0 <= i < |s| ==> r[i] == s[i] as int
  {
    seq(|s|, i requires 0 <= i < |s| => s[i] as int)
  }

  /**
   * The counter does not retry a mismatched character as a fresh start: with
   * trigger `aab`, typing `aaab` ends on the trigger but the counter never
   * reaches 3.
   */
  lemma CounterMissesOverlap()
    ensures Feed("aab", 0, Codes("aaab")) == 0
    ensures forall k :: 0 <= k <= 4 ==> Feed("aab", 0, Codes("aaab")[..k]) < 3
  {
    var cs := Codes("aaab");
    var a := 'a' as int;
    assert cs == [a, a, a, 'b' as int];
    assert Feed("aab", 0, cs) == Feed("aab", 1, [a, a, 'b' as int]) == Feed("aab", 2, [a, 'b' as int]) == Feed("aab", 0, ['b' as int]) == 0;
    assert Feed("aab", 0, [a, a, a]) == Feed("aab", 1, [a, a]) == Feed("aab", 2, [a]) == Feed("aab", 0, []) == 0;
    assert Feed("aab", 0, [a, a]) == Feed("aab", 1, [a]) == 2;
    assert Feed("aab", 0, [a]) == 1;
    forall k | 0 <= k <= 4
      ensures Feed("aab", 0, cs[..k]) < 3
    {
      if k == 0 {
        assert cs[..k] == [];
      } else if k == 1 {
        assert cs[..k] == [a];
      } else if k == 2 {
        assert cs[..k] == [a, a];
      } else if k == 3 {
        assert cs[..k] == [a, a, a];
      } else {
        assert cs[..k] == cs;
      }
    }
  }

  /**
   * A counter left at the trigger's end (nothing resets it when the span is
   * left) swallows the next character, so a trigger typed right after a
   * completed one is not recognised.
   */
  lemma FinishedCounterSwallowsNextChar(pat: string)
    requires |pat| > 0
    ensures forall c :: Advance(pat, |pat|, c) == 0
    ensures Feed(pat, |pat|, Codes(pat)) < |pat|
  {
    FeedBelow(pat, 0, Codes(pat)[1..]);
    assert Codes(pat) == [Codes(pat)[0]] + Codes(pat)[1..];
  }

  /** From a counter below `|pat|`, fewer than `|pat| - pos` characters cannot reach the end. */
  lemma {:induction false} FeedBelow(pat: string, pos: nat, cs: seq<int>)
    requires pos + |cs| < |pat|
    ensures Feed(pat, pos, cs) < |pat|
    decreases |cs|
  {
    if |cs| > 0 {
      FeedBelow(pat, Advance(pat, pos, cs[0]), cs[1..]);
    }
  }

  /**
   * The detection scan of `_onKeyUp` from template `i` on: every template's
   * counter steps on `c` until one reaches its trigger's end, which is
   * returned; the templates after it keep their counters.
   */
  function Scan(ts: seq<Template>, pos: seq<nat>, c: int, i: nat): (r: (seq<nat>, Option<nat>))
    requires |pos| == |ts| && i <= |ts|
    ensures |r.0| == |ts|
    ensures forall j :: 0 <= j < i ==> r.0[j] == pos[j]
    ensures r.1.Some? ==> i <= r.1.value < |ts| && r.0[r.1.value] == |ts[r.1.value].pat|
    ensures r.1.Some? ==> forall j :: r.1.value < j < |ts| ==> r.0[j] == pos[j]
    ensures forall j :: i <= j < |ts| && (r.1.None? || j <= r.1.value) ==> r.0[j] == Advance(ts[j].pat, pos[j], c)
    ensures forall j :: i <= j < |ts| && (r.1.None? || j < r.1.value) ==> r.0[j] != |ts[j].pat| || |ts[j].pat| == 0
    decreases |ts| - i
  {
    if i == |ts| then (pos, None)
    else
      var p := Advance(ts[i].pat, pos[i], c);
      var pos' := pos[i := p];
      if p == |ts[i].pat| && p > 0 then (pos', Some(i))
      else Scan(ts, pos', c, i + 1)
  }

  // ---------------------------------------------------------------------------
  // Controller state
  // ---------------------------------------------------------------------------

  /** The templates read from the configuration and the wiki search. */
  datatype Config = Config(templates: seq<Template>, search: Search)

  /**
   * The controller's fields: `template` indexes the template list,
   * `positions` holds each template's `pos` counter, `lastChar` the code of
   * the last key pressed (-1 before any).
   */
  datatype Session = Session(
    phase: Phase,
    template: Option<nat>,
    positions: seq<nat>,
    bestMatches: seq<string>,
    idx: int,
    lastChar: int,
    hasInput: bool,
    popup: bool,
    area: Edit)

  function Initial(cfg: Config, area: Edit): Session {
    Session(Void, None, seq(|cfg.templates|, _ => 0), [], -1, -1, false, false, area)
  }

  /** The invariant every handler keeps. */
  predicate Wf(cfg: Config, s: Session) {
    && s.area.cursor <= |s.area.text|
    && (s.idx == -1 || 0 <= s.idx < |s.bestMatches|)
    && (s.template.Some? ==> s.template.value < |cfg.templates|)
    && (s.phase != Void ==> s.template.Some?)
    && |s.positions| == |cfg.templates|
  }

  lemma InitialWf(cfg: Config, area: Edit)
    requires area.cursor <= |area.text|
    ensures Wf(cfg, Initial(cfg, area)) && Initial(cfg, area).phase == Void
  {
  }

  /** `_next` over the popup, whose children are the list's entries. */
  function Next(s: Session): (r: Session)
    requires s.idx == -1 || 0 <= s.idx < |s.bestMatches|
    ensures r == s.(idx := r.idx) && (r.idx == -1 || 0 <= r.idx < |r.bestMatches|)
    ensures |s.bestMatches| == 0 ==> r == s
    ensures |s.bestMatches| > 0 ==> r.idx == NextIndex(s.idx, |s.bestMatches|)
  {
    if |s.bestMatches| > 0 then s.(idx := NextIndex(s.idx, |s.bestMatches|)) else s
  }

  /** `_previous` over the popup. */
  function Previous(s: Session): (r: Session)
    requires s.idx == -1 || 0 <= s.idx < |s.bestMatches|
    ensures r == s.(idx := r.idx) && (r.idx == -1 || 0 <= r.idx < |r.bestMatches|)
    ensures |s.bestMatches| == 0 ==> r == s
    ensures |s.bestMatches| > 0 ==> r.idx == PreviousIndex(s.idx, |s.bestMatches|)
  {
    if |s.bestMatches| > 0 then s.(idx := PreviousIndex(s.idx, |s.bestMatches|)) else s
  }

  lemma NextPreviousInverse(s: Session)
    requires s.idx == -1 || 0 <= s.idx < |s.bestMatches|
    ensures Previous(Next(s)) == s && Next(Previous(s)) == s
  {
    if |s.bestMatches| > 0 {
      SelectionStepsInverse(s.idx, |s.bestMatches|);
    }
  }

  /**
   * `_abortPattern` as written: the list is meant to be emptied, but the
   * assignment goes to a misspelt field, so the old matches survive.
   */
  function AbortAsWritten(cfg: Config, s: Session): (r: Session)
    requires Wf(cfg, s)
    ensures Wf(cfg, r) && r.phase == Void && r.idx == -1 && r.template.None? && !r.popup
    ensures r.bestMatches == s.bestMatches && r.positions == s.positions && r.area == s.area
    ensures r.hasInput == s.hasInput && r.lastChar == s.lastChar
  {
    s.(phase := Void, idx := -1, popup := false, template := None)
  }

  /** `_abortPattern`, corrected: back to VOID with the list emptied; the counters are left as they are. */
  function Abort(cfg: Config, s: Session): (r: Session)
    requires Wf(cfg, s)
    ensures Wf(cfg, r) && r.phase == Void && r.idx == -1 && r.template.None? && !r.popup
    ensures r.bestMatches == [] && r.positions == s.positions && r.area == s.area
    ensures r.hasInput == s.hasInput && r.lastChar == s.lastChar
  {
    s.(phase := Void, idx := -1, popup := false, template := None, bestMatches := [])
  }

  /** `_abortPattern` in build `b`: the two differ only in the list they leave. */
  function AbortIn(cfg: Config, s: Session, b: Build): (r: Session)
    requires Wf(cfg, s)
    ensures Wf(cfg, r) && r.phase == Void && r.idx == -1 && r.template.None? && !r.popup
    ensures r.positions == s.positions && r.area == s.area && r.hasInput == s.hasInput && r.lastChar == s.lastChar
    ensures r.bestMatches == (if b == AsWritten then s.bestMatches else [])
  {
    match b
    case AsWritten => AbortAsWritten(cfg, s)
    case Corrected => Abort(cfg, s)
  }

  // ---------------------------------------------------------------------------
  // Handlers
  // ---------------------------------------------------------------------------

  /** `_onKeyDown`. */
  function OnKeyDown(cfg: Config, s: Session): (r: Session)
    requires Wf(cfg, s)
    ensures Wf(cfg, r) && r == s.(hasInput := false)
  {
    s.(hasInput := false)
  }

  /** `_onInput`, with the browser's edit of the text area. */
  function OnInput(cfg: Config, s: Session, area: Edit): (r: Session)
    requires Wf(cfg, s) && area.cursor <= |area.text|
    ensures Wf(cfg, r) && r == s.(hasInput := true, area := area)
  {
    s.(hasInput := true, area := area)
  }

  /** `String.fromCharCode(key)`: the key code reduced to a UTF-16 code unit. */
  function CodeUnit(key: int): (r: int)
    ensures 0 <= r < 0x1_0000
    ensures 0 <= key < 0x1_0000 ==> r == key
  {
    key % 0x1_0000
  }

  /**
   * `_onKeyPress`: records the key's character; Ctrl+Space while VOID enters
   * PATTERN with the remembered template, or else with the first template
   * whose span encloses the cursor (staying VOID when there is none).
   */
  function OnKeyPress(cfg: Config, s: Session, e: KeyEvent): (r: Session)
    requires Wf(cfg, s)
    ensures Wf(cfg, r) && r.lastChar == CodeUnit(KeyOf(e))
    ensures r.bestMatches == s.bestMatches && r.area == s.area && r.positions == s.positions
    ensures !(KeyOf(e) == KeySpace && e.ctrlKey && s.phase == Void) ==> r == s.(lastChar := r.lastChar)
    ensures KeyOf(e) == KeySpace && e.ctrlKey && s.phase == Void && s.template.None? ==>
      && (r.phase == Typing <==> exists i :: 0 <= i < |cfg.templates| && ExtractPattern(s.area.text, s.area.cursor, cfg.templates[i]).Some?)
      && (r.phase == Typing ==>
            && ExtractPattern(s.area.text, s.area.cursor, cfg.templates[r.template.value]).Some?
            && forall j :: 0 <= j < r.template.value ==> ExtractPattern(s.area.text, s.area.cursor, cfg.templates[j]).None?)
  {
    var key := KeyOf(e);
    var s' := s.(lastChar := CodeUnit(key));
    if key == KeySpace && e.ctrlKey && s.phase == Void then
      if s.template.None? then
        match FirstExtracting(cfg.templates, s.area.text, s.area.cursor)
        case None => s'
        case Some(i) => s'.(template := Some(i), phase := Typing)
      else s'.(phase := Typing)
    else s'
  }

  /** What `this._template.start` throws on when no span encloses the cursor. */
  const UndefinedSpanMessage := "Cannot read properties of undefined (reading 'start')"

  /**
   * ENTER in PATTERN/SELECT: a selection counts unless it equals `_maxMatch`;
   * without one, a list of exactly one title is taken. The chosen title is
   * written between the template's delimiters over the span. Then abort, in
   * build `b`.
   */
  function Enter(cfg: Config, s: Session, span: Option<Span>, b: Build): (r: Outcome<Session>)
    requires Wf(cfg, s) && s.phase != Void
    ensures Wf(cfg, r.state)
    ensures r.Done? ==>
      && r.state.phase == Void && r.state.idx == -1 && !r.state.popup
      && r.state.bestMatches == (if b == AsWritten then s.bestMatches else [])
    ensures var selected := s.idx > -1 && s.idx != MaxMatch;
      r.Thrown? <==> span.None? && (selected || |s.bestMatches| == 1)
    ensures r.Thrown? ==> r.state == s
    ensures var selected := s.idx > -1 && s.idx != MaxMatch;
      span.Some? && (selected || |s.bestMatches| == 1) ==>
        r.state.area == InsertWrapped(s.area.text, s.bestMatches[if selected then s.idx else 0],
                                      span.value.start, s.area.cursor, cfg.templates[s.template.value])
    ensures var selected := s.idx > -1 && s.idx != MaxMatch;
      !(selected || |s.bestMatches| == 1) ==> r.state.area == s.area
  {
    var selected := s.idx > -1 && s.idx != MaxMatch;
    if selected || |s.bestMatches| == 1 then
      var title := s.bestMatches[if selected then s.idx else 0];
      match span
      case None => Thrown(s, UndefinedSpanMessage)
      case Some(p) =>
        Done(AbortIn(cfg, s.(area := InsertWrapped(s.area.text, title, p.start, s.area.cursor, cfg.templates[s.template.value])), b))
    else Done(AbortIn(cfg, s, b))
  }

  /**
   * The refresh of `_onKeyUp` once the span is known: drop the selection and,
   * for a partial of at least two characters, filter the template's titles
   * and show them, or keep looking with the popup hidden.
   */
  function Refresh(cfg: Config, s: Session, p: Span, best: seq<string>): (r: Session)
    requires Wf(cfg, s) && s.phase != Void
    ensures Wf(cfg, r) && r.idx == -1 && r.area == s.area && r.positions == s.positions
    ensures r.template == s.template && (r.phase == s.phase || r.phase == Typing)
    ensures |p.text| < MinPatLen ==> r == s.(idx := -1)
    ensures |p.text| >= MinPatLen ==> r.bestMatches == best && (r.popup <==> |best| > 0)
    ensures |p.text| >= MinPatLen && |best| == 0 ==> r.phase == Typing
  {
    var s' := s.(idx := -1);
    if |p.text| > MinPatLen - 1 then
      if |best| > 0 then s'.(bestMatches := best, popup := true)
      else s'.(bestMatches := best, phase := Typing, popup := false)
    else s'
  }

  /** UP or DOWN with no pending input: the keys that move the selection. */
  predicate Navigates(s: Session, key: int) {
    (key == KeyUp || key == KeyDown) && !s.hasInput
  }

  /**
   * `_onKeyUp(event)`, with the aborts of build `b` (`AsWritten` is the
   * program): escape aborts; input while VOID feeds the counters; inside a
   * span ENTER commits, UP/DOWN without input move the selection, and
   * anything else refreshes the list from the template's titles, or aborts
   * when no span encloses the cursor.
   */
  function OnKeyUp(cfg: Config, s: Session, key: int, b: Build): (r: Outcome<Session>)
    requires Wf(cfg, s)
    ensures Wf(cfg, r.state) && r.state.lastChar == s.lastChar
    ensures r.Done? ==> !r.state.hasInput
    ensures key != KeyEnter ==> r.Done? && r.state.area == s.area
    ensures key != KeyEscape && s.hasInput && s.phase == Void ==>
      && r.Done? && r.state.bestMatches == s.bestMatches && r.state.idx == s.idx && r.state.popup == s.popup
    ensures key == KeyEscape ==>
      && r.Done? && r.state.idx == -1 && !r.state.popup
      && r.state.bestMatches == (if b == AsWritten then s.bestMatches else [])
    ensures s.phase != Void && key != KeyEscape ==>
      (r.state.phase == Void <==>
        r.Done? && (key == KeyEnter ||
                    (!Navigates(s, key) && ExtractPattern(s.area.text, s.area.cursor, cfg.templates[s.template.value]).None?)))
    ensures b == AsWritten && r.state.bestMatches != s.bestMatches ==> r.Done? && r.state.phase != Void && r.state.idx == -1
  {
    var s1 := if key == KeyEscape then AbortIn(cfg, s, b) else s;
    if s1.hasInput && s1.phase == Void then
      var (pos, found) := Scan(cfg.templates, s1.positions, s1.lastChar, 0);
      match found
      case None => Done(s1.(positions := pos, hasInput := false))
      case Some(i) => Done(s1.(positions := pos, phase := Typing, template := Some(i), hasInput := false))
    else if s1.phase != Void then Respond(cfg, s1, key, b)
    else Done(s1.(hasInput := false))
  }

  /**
   * `_onKeyUp` in PATTERN or SELECT: ENTER inserts, UP and DOWN move the
   * selection, any other key refreshes the list. The span is left only by a
   * completed ENTER or when no span encloses the cursor.
   */
  function Respond(cfg: Config, s: Session, key: int, b: Build): (r: Outcome<Session>)
    requires Wf(cfg, s) && s.phase != Void
    ensures Wf(cfg, r.state) && r.state.lastChar == s.lastChar
    ensures r.Done? ==> !r.state.hasInput
    ensures key != KeyEnter ==> r.Done? && r.state.area == s.area
    ensures r.state.phase == Void <==>
      r.Done? && (key == KeyEnter ||
                  (!Navigates(s, key) && ExtractPattern(s.area.text, s.area.cursor, cfg.templates[s.template.value]).None?))
    ensures Navigates(s, key) && key != KeyEnter ==>
      r.Done? && r.state.phase == Selecting && r.state.bestMatches == s.bestMatches
    ensures key == KeyEnter ==>
      var e := Enter(cfg, s, ExtractPattern(s.area.text, s.area.cursor, cfg.templates[s.template.value]), b);
      && (r.Thrown? <==> e.Thrown?)
      && (r.Thrown? ==> r == e)
      && (r.Done? ==> r.state == e.state.(hasInput := false))
    ensures b == AsWritten && r.state.bestMatches != s.bestMatches ==> r.Done? && r.state.phase != Void && r.state.idx == -1
  {
    var span := ExtractPattern(s.area.text, s.area.cursor, cfg.templates[s.template.value]);
    if key == KeyEnter then
      match Enter(cfg, s, span, b)
      case Done(t) => Done(t.(hasInput := false))
      case Thrown(t, m) => Thrown(t, m)
    else if key == KeyUp && !s.hasInput then Done(Previous(s.(phase := Selecting)).(hasInput := false))
    else if key == KeyDown && !s.hasInput then Done(Next(s.(phase := Selecting)).(hasInput := false))
    else match span
      case Some(p) =>
        var best := BestMatches(cfg.search(cfg.templates[s.template.value].filter), p.text, None);
        Done(Refresh(cfg, s, p, best).(hasInput := false))
      case None => Done(AbortIn(cfg, s, b).(hasInput := false))
  }

  /**
   * Fresh input while VOID feeds the last character to every template's
   * counter: the counters become the scan's, and PATTERN is entered exactly
   * when some template completed its trigger, with that template. The list,
   * the selection and the popup are left alone.
   */
  lemma OnKeyUpDetects(cfg: Config, s: Session, key: int, b: Build)
    requires Wf(cfg, s) && s.hasInput && s.phase == Void && key != KeyEscape
    ensures var r := OnKeyUp(cfg, s, key, b);
      var scan := Scan(cfg.templates, s.positions, s.lastChar, 0);
      && r.Done? && !r.state.hasInput && r.state.positions == scan.0
      && (r.state.phase == Typing <==> scan.1.Some?)
      && (scan.1.Some? ==> r.state.template == scan.1)
      && (scan.1.None? ==> r.state.phase == Void && r.state.template == s.template)
      && r.state.bestMatches == s.bestMatches && r.state.idx == s.idx && r.state.popup == s.popup
      && r.state.area == s.area
  {
  }

  /**
   * Any key but ESC, ENTER and navigation inside a span refreshes the list:
   * a partial of at least two characters replaces it with the template's
   * filtered titles, shown exactly when some title matched; a shorter one
   * only drops the selection.
   */
  lemma OnKeyUpRefreshes(cfg: Config, s: Session, key: int, p: Span, b: Build)
    requires Wf(cfg, s) && s.phase != Void && key != KeyEscape && key != KeyEnter && !Navigates(s, key)
    requires ExtractPattern(s.area.text, s.area.cursor, cfg.templates[s.template.value]) == Some(p)
    ensures var r := OnKeyUp(cfg, s, key, b);
      var best := BestMatches(cfg.search(cfg.templates[s.template.value].filter), p.text, None);
      && r.Done? && !r.state.hasInput && r.state.idx == -1 && r.state.phase != Void
      && r.state.template == s.template && r.state.positions == s.positions
      && (|p.text| >= MinPatLen ==> r.state.bestMatches == best && (r.state.popup <==> |best| > 0))
      && (|p.text| >= MinPatLen && |best| == 0 ==> r.state.phase == Typing)
      && (|p.text| < MinPatLen ==> r.state == s.(idx := -1, hasInput := false))
  {
  }

  /**
   * ENTER in PATTERN or SELECT is the insertion step on the span enclosing
   * the cursor: it throws exactly when that step throws, with the same state
   * and message, and otherwise ends in the step's state with the pending
   * input forgotten.
   */
  lemma OnKeyUpEnters(cfg: Config, s: Session, b: Build)
    requires Wf(cfg, s) && s.phase != Void
    ensures var r := OnKeyUp(cfg, s, KeyEnter, b);
      var e := Enter(cfg, s, ExtractPattern(s.area.text, s.area.cursor, cfg.templates[s.template.value]), b);
      && (r.Thrown? <==> e.Thrown?)
      && (r.Thrown? ==> r == e)
      && (r.Done? ==> r.state == e.state.(hasInput := false))
  {
  }

  /** UP and DOWN without pending input inside a span move the selection within the unchanged list. */
  lemma OnKeyUpNavigates(cfg: Config, s: Session, key: int, b: Build)
    requires Wf(cfg, s) && s.phase != Void && Navigates(s, key)
    ensures var r := OnKeyUp(cfg, s, key, b);
      && r.Done? && r.state.phase == Selecting && r.state.bestMatches == s.bestMatches
      && (|s.bestMatches| == 0 ==> r.state.idx == s.idx)
      && (|s.bestMatches| > 0 && key == KeyDown ==> r.state.idx == NextIndex(s.idx, |s.bestMatches|))
      && (|s.bestMatches| > 0 && key == KeyUp ==> r.state.idx == PreviousIndex(s.idx, |s.bestMatches|))
  {
  }

  /**
   * One printable key typed into the text area, in the browser's event order:
   * keydown, keypress with the character `c`, the input that edits the area,
   * keyup with the key's code `key`.
   */
  function Keystroke(cfg: Config, s: Session, c: char, key: int, area: Edit, b: Build): (r: Outcome<Session>)
    requires Wf(cfg, s) && area.cursor <= |area.text|
    ensures Wf(cfg, r.state) && r.state.lastChar == CodeUnit(c as int)
    ensures key != KeyEnter ==> r.Done? && r.state.area == area
  {
    var e := KeyEvent(c as int, c as int, false, false, false);
    OnKeyUp(cfg, OnInput(cfg, OnKeyPress(cfg, OnKeyDown(cfg, s), e), area), key, b)
  }

  /** Typing ` [[` (space, then `[` twice) into an emptied area. */
  function TypeOpener(cfg: Config, s: Session, b: Build): (r: Session)
    requires Wf(cfg, s)
    ensures Wf(cfg, r) && r.area == Edit(" [[", 3)
  {
    var s1 := Keystroke(cfg, s, ' ', KeySpace, Edit(" ", 1), b).state;
    var s2 := Keystroke(cfg, s1, '[', 219, Edit(" [", 2), b).state;
    Keystroke(cfg, s2, '[', 219, Edit(" [[", 3), b).state
  }

  /**
   * After any abort that leaves the wiki-link counter at its end, typing
   * ` [[` detects the trigger again and leaves the list as the abort left it.
   */
  lemma TypeOpenerDetects(search: Search, a: Session, b: Build)
    requires Wf(Config([DefaultTemplate], search), a)
    requires a.phase == Void && a.template.None? && a.positions == [2] && a.idx == -1
    ensures var r := TypeOpener(Config([DefaultTemplate], search), a, b);
      && r.phase == Typing && r.template == Some(0) && r.idx == -1
      && r.bestMatches == a.bestMatches
  {
    var cfg := Config([DefaultTemplate], search);
    var s1 := Keystroke(cfg, a, ' ', KeySpace, Edit(" ", 1), b).state;
    assert s1.phase == Void && s1.positions == [0] && s1.bestMatches == a.bestMatches && s1.idx == -1;
    var s2 := Keystroke(cfg, s1, '[', 219, Edit(" [", 2), b).state;
    assert s2.phase == Void && s2.positions == [1] && s2.bestMatches == a.bestMatches && s2.idx == -1;
  }

  /** The wiki-link span of ` [[` with the cursor at the end: an empty partial after the opener. */
  lemma ExtractAfterSpace()
    ensures ExtractPattern(" [[", 3, DefaultTemplate) == Some(Span("", 1, 3))
  {
    assert " [["[1..3] == "[[";
    assert " [["[0..2][0] == ' ';
    assert LastIndexOf(" [[", "[[", 3) == 1;
    assert LastIndexOf(" [[", "]]", 3) == -1;
    assert IndexOf(" [[", "]]", 3) == -1;
  }

  /**
   * ENTER right after ` [[` was detected: a list of exactly one title puts that
   * title between the brackets, an empty list leaves the text alone.
   */
  lemma EnterAfterOpener(search: Search, s: Session, b: Build)
    requires Wf(Config([DefaultTemplate], search), s)
    requires s.phase == Typing && s.template == Some(0) && s.idx == -1 && s.area == Edit(" [[", 3)
    ensures var r := OnKeyUp(Config([DefaultTemplate], search), OnKeyDown(Config([DefaultTemplate], search), s), KeyEnter, b);
      && (|s.bestMatches| == 1 ==> r.state.area.text == " [[" + s.bestMatches[0] + "]]")
      && (|s.bestMatches| == 0 ==> r.state.area.text == " [[")
  {
    ExtractAfterSpace();
    if |s.bestMatches| == 1 {
      var w := InsertWrapped(" [[", s.bestMatches[0], 1, 3, DefaultTemplate);
      assert w.text == w.text[..1] + w.text[1..w.cursor] + w.text[w.cursor..];
    }
  }

  /**
   * The stale list at work. A popup showing the single title `t` is closed
   * with ESC. The user then types ` [[` and presses ENTER at once, before any
   * title was looked up: as written the old `t` is inserted unasked, with the
   * corrected abort nothing is.
   */
  lemma StaleMatchReinserted(search: Search, t: string)
    ensures
      var cfg := Config([DefaultTemplate], search);
      var shown := Session(Typing, Some(0), [2], [t], -1, 'o' as int, false, true, Edit("", 0));
      var stale := TypeOpener(cfg, OnKeyUp(cfg, shown, KeyEscape, AsWritten).state, AsWritten);
      var clean := TypeOpener(cfg, OnKeyUp(cfg, shown, KeyEscape, Corrected).state, Corrected);
      && stale.bestMatches == [t] && clean.bestMatches == []
      && OnKeyUp(cfg, OnKeyDown(cfg, stale), KeyEnter, AsWritten).state.area.text == " [[" + t + "]]"
      && OnKeyUp(cfg, OnKeyDown(cfg, clean), KeyEnter, Corrected).state.area.text == " [["
  {
    var cfg := Config([DefaultTemplate], search);
    var shown := Session(Typing, Some(0), [2], [t], -1, 'o' as int, false, true, Edit("", 0));
    var a := OnKeyUp(cfg, shown, KeyEscape, AsWritten).state;
    var c := OnKeyUp(cfg, shown, KeyEscape, Corrected).state;
    assert a == AbortAsWritten(cfg, shown);
    assert c == Abort(cfg, shown);
    TypeOpenerDetects(search, a, AsWritten);
    TypeOpenerDetects(search, c, Corrected);
    EnterAfterOpener(search, TypeOpener(cfg, a, AsWritten), AsWritten);
    EnterAfterOpener(search, TypeOpener(cfg, c, Corrected), Corrected);
  }
}

=== FILE: pattern.dfy ===
/**
 * Trigger templates and the two ways a trigger is recognised: the stateless
 * span extractor (`extractPattern`, shared verbatim by both controllers) and
 * the cursor-anchored reverse suffix comparison (`Completion.matchesTemplate`).
 */
module Pattern {
  import opened Wrappers
  import opened Text

  /**
   * One completion context. An empty string stands for a field the
   * configuration left out (`undefined`, `null` or `""`: all falsy in JavaScript).
   * `pat` is the trigger, `filter` the query handed to the wiki search,
   * `start`/`end` the delimiters written around an insertion (legacy controller)
   * and `end` also the closer the extractor looks for.
   */
  datatype Template = Template(pat: string, filter: string, start: string, end: string)

  /** The wiki-link template: `[[title]]` over every non-system tiddler. */
  const DefaultTemplate := Template("[[", "[all[tiddlers]!is[system]]", "[[", "]]")

  /** The trigger the extractor searches for: `pat`, or `"[["` when it is falsy. */
  function Opener(t: Template): (r: string)
    ensures |r| > 0
  {
    if |t.pat| > 0 then t.pat else "[["
  }

  /** The closer the extractor searches for: `end`, or `"]]"` when it is falsy. */
  function Closer(t: Template): (r: string)
    ensures |r| > 0
  {
    if |t.end| > 0 then t.end else "]]"
  }

  /** The open span around the cursor: the partial typed so far and the span's boundaries. */
  datatype Span = Span(text: string, start: nat, end: nat)

  /** `o` is the last start of an occurrence of `s` at or before `pos`. */
  ghost predicate LastStart(text: string, s: string, pos: nat, o: int) {
    0 <= o <= pos && OccursAt(text, s, o) && forall j :: o < j <= pos ==> !OccursAt(text, s, j)
  }

  /** No occurrence of `closer` starts anywhere in `[o, pos]`. */
  ghost predicate Unclosed(text: string, closer: string, o: int, pos: nat) {
    forall j :: o <= j <= pos ==> !OccursAt(text, closer, j)
  }

  /**
   * `extractPattern(text, pos, template)`: the cursor sits inside an open span
   * when the last trigger at or before the cursor is not followed by a closer
   * up to the cursor, or when a closer starts exactly at the cursor.
   */
  function ExtractPattern(text: string, pos: nat, t: Template): (r: Option<Span>)
    // a span is found exactly when the last trigger is unclosed, or a closer sits at the cursor
    ensures r.Some? ==>
      && LastStart(text, Opener(t), pos, r.value.start)
      && (Unclosed(text, Closer(t), r.value.start, pos) || OccursAt(text, Closer(t), pos))
    ensures r.None? ==>
      || (forall i :: 0 <= i <= pos ==> !OccursAt(text, Opener(t), i))
      || (forall o :: LastStart(text, Opener(t), pos, o) ==>
            !Unclosed(text, Closer(t), o, pos) && !OccursAt(text, Closer(t), pos))
    // the partial runs from the end of the trigger to the cursor, empty if the trigger straddles the cursor
    ensures r.Some? && pos <= |text| ==>
      r.value.text == (if r.value.start + |Opener(t)| <= pos then text[r.value.start + |Opener(t)|..pos] else [])
    // the span ends at the first closer at or after the cursor, or at the cursor when there is none
    ensures r.Some? ==>
      || (pos <= r.value.end && OccursAt(text, Closer(t), r.value.end)
          && forall j :: pos <= j < r.value.end ==> !OccursAt(text, Closer(t), j))
      || (r.value.end == pos && forall j :: pos <= j ==> !OccursAt(text, Closer(t), j))
  {
    var open := Opener(t);
    var close := Closer(t);
    var prevOpen := LastIndexOf(text, open, pos);
    var prevClosed := LastIndexOf(text, close, pos);
    var nextClosed := IndexOf(text, close, pos);
    var end := if nextClosed >= 0 then nextClosed else pos;
    if prevOpen >= 0 && (prevOpen > prevClosed || prevClosed == pos) then
      Some(Span(Slice(text, prevOpen + |open|, pos), prevOpen, end))
    else
      None
  }

  /** The worked example: `"abc [[Foo"` with the cursor at the end yields the partial `"Foo"`. */
  lemma ExtractExample()
    ensures ExtractPattern("abc [[Foo", 9, Template("[[", "", "[[", "]]")) == Some(Span("Foo", 4, 9))
  {
    var text := "abc [[Foo";
    var t := Template("[[", "", "[[", "]]");
    assert OccursAt(text, "[[", 4);
    forall j | 4 < j <= 9
      ensures !OccursAt(text, "[[", j)
    {
      if j + 2 <= |text| {
        assert text[j..j + 2][1] == text[j + 1] != '[';
      }
    }
    forall j | 0 <= j && j + 2 <= |text|
      ensures !OccursAt(text, "]]", j)
    {
      assert text[j..j + 2][0] == text[j] != ']';
    }
    assert LastIndexOf(text, "[[", 9) == 4;
    assert text[6..9] == [text[6], text[7], text[8]];
  }

  /** Position `k` of the trigger agrees with the buffer shifted by `d`. */
  predicate Agree(value: string, pat: string, d: int, k: int) {
    0 <= k < |pat| && 0 <= k + d < |value| && value[k + d] == pat[k]
  }

  /** The reverse scan of `matchesTemplate`: pattern index `k`, buffer index `k + d`, both counting down. */
  function MatchesDown(value: string, pat: string, d: int, k: int): (r: bool)
    requires k < |pat|
    ensures r <==> forall j :: 0 <= j <= k && 0 <= j + d ==> Agree(value, pat, d, j)
    decreases k + 1
  {
    if k < 0 || k + d < 0 then true
    else if !Agree(value, pat, d, k) then false
    else MatchesDown(value, pat, d, k - 1)
  }

  /**
   * `Completion.matchesTemplate(template, value, c)`: the text just before the
   * cursor `c` ends with the trigger; when fewer than `|pat|` characters precede
   * the cursor only those are compared, so `c == 0` always matches.
   */
  function MatchesTemplate(pat: string, value: string, c: nat): (r: bool)
    ensures c <= |value| && |pat| <= c ==> (r <==> value[c - |pat|..c] == pat)
    ensures c <= |value| && c < |pat| ==> (r <==> value[..c] == pat[|pat| - c..])
    ensures |value| < c && |pat| > 0 ==> !r
  {
    MatchesDownSuffix(value, pat, c);
    MatchesDown(value, pat, c - |pat|, |pat| - 1)
  }

  /** Reads the reverse scan's agreement as a comparison of the text before the cursor with the trigger. */
  lemma MatchesDownSuffix(value: string, pat: string, c: nat)
    ensures c <= |value| && |pat| <= c ==> (MatchesDown(value, pat, c - |pat|, |pat| - 1) <==> value[c - |pat|..c] == pat)
    ensures c <= |value| && c < |pat| ==> (MatchesDown(value, pat, c - |pat|, |pat| - 1) <==> value[..c] == pat[|pat| - c..])
    ensures |value| < c && |pat| > 0 ==> !MatchesDown(value, pat, c - |pat|, |pat| - 1)
  {
    if c <= |value| && |pat| <= c {
      MatchesDownFull(value, pat, c);
    } else if c <= |value| {
      MatchesDownPartial(value, pat, c);
    } else if |pat| > 0 {
      MatchesDownBeyond(value, pat, c);
    }
  }

  /** A cursor with the whole trigger before it: the scan compares the trigger with the text just before the cursor. */
  lemma MatchesDownFull(value: string, pat: string, c: nat)
    requires c <= |value| && |pat| <= c
    ensures MatchesDown(value, pat, c - |pat|, |pat| - 1) <==> value[c - |pat|..c] == pat
  {
    SuffixAgree(value, pat, c - |pat|, c);
  }

  /** A cursor with only part of the trigger before it: the scan compares that part with the trigger's tail. */
  lemma MatchesDownPartial(value: string, pat: string, c: nat)
    requires c <= |value| && c < |pat|
    ensures MatchesDown(value, pat, c - |pat|, |pat| - 1) <==> value[..c] == pat[|pat| - c..]
  {
    PartialSuffixAgree(value, pat, c - |pat|, c);
  }

  /** A cursor past the end of the text: the first comparison reads outside the text and fails. */
  lemma MatchesDownBeyond(value: string, pat: string, c: nat)
    requires |value| < c && |pat| > 0
    ensures !MatchesDown(value, pat, c - |pat|, |pat| - 1)
  {
    assert !Agree(value, pat, c - |pat|, |pat| - 1);
  }

  lemma SuffixAgree(value: string, pat: string, d: int, c: nat)
    requires c <= |value| && |pat| <= c && d == c - |pat|
    ensures (forall j :: 0 <= j <= |pat| - 1 && 0 <= j + d ==> Agree(value, pat, d, j)) <==> value[c - |pat|..c] == pat
  {
    if forall j :: 0 <= j <= |pat| - 1 && 0 <= j + d ==> Agree(value, pat, d, j) {
      forall i | 0 <= i < |pat|
        ensures value[c - |pat|..c][i] == pat[i]
      {
        assert Agree(value, pat, d, i);
      }
    }
    if value[c - |pat|..c] == pat {
      forall j | 0 <= j <= |pat| - 1 && 0 <= j + d
        ensures Agree(value, pat, d, j)
      {
        assert value[c - |pat|..c][j] == value[j + d];
      }
    }
  }

  lemma PartialSuffixAgree(value: string, pat: string, d: int, c: nat)
    requires c <= |value| && c < |pat| && d == c - |pat|
    ensures (forall j :: 0 <= j <= |pat| - 1 && 0 <= j + d ==> Agree(value, pat, d, j)) <==> value[..c] == pat[|pat| - c..]
  {
    if forall j :: 0 <= j <= |pat| - 1 && 0 <= j + d ==> Agree(value, pat, d, j) {
      forall i | 0 <= i < c
        ensures value[..c][i] == pat[|pat| - c..][i]
      {
        assert Agree(value, pat, d, i - d);
      }
    }
    if value[..c] == pat[|pat| - c..] {
      forall j | 0 <= j <= |pat| - 1 && 0 <= j + d
        ensures Agree(value, pat, d, j)
      {
        assert value[..c][j + d] == pat[|pat| - c..][j + d];
      }
    }
  }

  /** At the start of the buffer every trigger matches: no character is compared. */
  lemma MatchesAtStart(pat: string, value: string)
    ensures MatchesTemplate(pat, value, 0)
  {
  }

  /** The span `"[["` opens in an otherwise empty text, with the cursor after it. */
  lemma ExtractOpenBrackets()
    ensures ExtractPattern("[[", 2, DefaultTemplate) == Some(Span("", 0, 2))
  {
    assert OccursAt("[[", "[[", 0);
    assert !OccursAt("[[", "]]", 0);
    assert LastIndexOf("[[", "[[", 2) == 0;
    assert LastIndexOf("[[", "]]", 2) == -1;
    assert IndexOf("[[", "]]", 2) == -1;
  }
}

=== FILE: ranking.dfy ===
/**
 * Ranking of candidates against a partial: the shared `CompletionSource.rank`
 * (prefix matches, a spacer, then contains-only matches, with an early
 * overflow exit) and the paper-references override that orders candidates
 * influential-first when nothing has been typed yet.
 */
module Ranking {
  import opened Text
  import opened Items

  /** How a candidate's title relates to the partial. */
  datatype Kind = Prefix | Inside | Miss

  /** The partial being completed and whether matching is case sensitive. */
  datatype Query = Query(partial: string, caseSensitive: bool)

  /** The two regular-expression tests of `rank`, in the order the source applies them. */
  function KindOf(q: Query, c: Candidate): Kind {
    if StartsWith(c.title, q.partial, q.caseSensitive) then Prefix
    else if Contains(c.title, q.partial, q.caseSensitive) then Inside
    else Miss
  }

  /** The classification `rank` applies to every candidate for a given query. */
  function Classifier(q: Query): Candidate -> Kind {
    c => KindOf(q, c)
  }

  /** The candidates `kind` puts in class `k`, in input order, as ranked entries. */
  function Select(cs: seq<Candidate>, kind: Candidate -> Kind, k: Kind): (r: seq<Entry>)
    ensures |r| <= |cs|
  {
    if |cs| == 0 then []
    else (if kind(cs[0]) == k then [Choice(cs[0])] else []) + Select(cs[1..], kind, k)
  }

  /** What `Select` keeps: candidates of the input that `kind` puts in class `k`. */
  lemma {:induction false} SelectSound(cs: seq<Candidate>, kind: Candidate -> Kind, k: Kind)
    ensures forall i :: 0 <= i < |Select(cs, kind, k)| ==>
      Select(cs, kind, k)[i].Choice? && Select(cs, kind, k)[i].item in cs && kind(Select(cs, kind, k)[i].item) == k
  {
    if |cs| > 0 {
      SelectSound(cs[1..], kind, k);
      var head := if kind(cs[0]) == k then [Choice(cs[0])] else [];
      var r := Select(cs, kind, k);
      forall i | 0 <= i < |r|
        ensures r[i].Choice? && r[i].item in cs && kind(r[i].item) == k
      {
        assert cs == [cs[0]] + cs[1..];
        if i >= |head| {
          assert r[i] == Select(cs[1..], kind, k)[i - |head|];
          assert r[i].item in cs[1..];
        } else {
          assert r[i] == Choice(cs[0]);
        }
      }
    }
  }

  /** How many candidates match at all. */
  function MatchCount(cs: seq<Candidate>, kind: Candidate -> Kind): nat {
    |Select(cs, kind, Prefix)| + |Select(cs, kind, Inside)|
  }

  /** `limit || maximumMatches`: an absent (or zero) limit falls back to the source's maximum. */
  function EffectiveLimit(limit: int, maximumMatches: int): int {
    if limit == 0 then maximumMatches else limit
  }

  /** The number of matches kept before the overflow exit; a negative limit keeps none. */
  function Cap(limit: int): nat {
    if limit < 0 then 0 else limit
  }

  /**
   * The scan of `rank` over the candidates not yet seen: `best` and `other`
   * are the prefix and contains-only matches collected so far, `n` their count.
   */
  function RankFrom(rest: seq<Candidate>, kind: Candidate -> Kind, limit: int, best: seq<Entry>, other: seq<Entry>, n: nat): seq<Entry>
    decreases |rest|
  {
    if |rest| == 0 then best + [Spacer] + other
    else
      var c := rest[0];
      match kind(c)
      case Prefix =>
        if n >= limit then best + [Ellipsis]
        else RankFrom(rest[1..], kind, limit, best + [Choice(c)], other, n + 1)
      case Inside =>
        if n >= limit then best + [Choice(c)] + other + [Ellipsis]
        else RankFrom(rest[1..], kind, limit, best, other + [Choice(c)], n + 1)
      case Miss =>
        RankFrom(rest[1..], kind, limit, best, other, n)
  }

  /**
   * The list `rank` returns when the match at index `k` arrives with the cap
   * already reached: a prefix match gives the earlier prefix matches and an
   * ellipsis (the earlier contains-only matches are dropped); a contains-only
   * match gives the earlier prefix matches, itself, the earlier contains-only
   * matches and an ellipsis.
   */
  ghost function Truncated(cs: seq<Candidate>, kind: Candidate -> Kind, k: nat): seq<Entry>
    requires k < |cs|
  {
    if kind(cs[k]) == Prefix then Select(cs[..k], kind, Prefix) + [Ellipsis]
    else Select(cs[..k], kind, Prefix) + [Choice(cs[k])] + Select(cs[..k], kind, Inside) + [Ellipsis]
  }

  /** `k` is where the scan stops: a match with exactly `cap` matches before it. */
  ghost predicate ExitPoint(cs: seq<Candidate>, kind: Candidate -> Kind, cap: nat, k: int) {
    0 <= k < |cs| && kind(cs[k]) != Miss && MatchCount(cs[..k], kind) == cap
  }

  /**
   * `CompletionSource.prototype.rank(completions, partial, limit)`.
   * With at most `cap` matches: prefix matches in input order, one spacer,
   * contains-only matches in input order. Otherwise the scan stops at the
   * first match beyond the cap, with the list `Truncated` describes.
   */
  function Rank(cs: seq<Candidate>, partial: string, caseSensitive: bool, limit: int, maximumMatches: int): (r: seq<Entry>)
    ensures var kind := Classifier(Query(partial, caseSensitive));
      MatchCount(cs, kind) <= Cap(EffectiveLimit(limit, maximumMatches)) ==>
        r == Select(cs, kind, Prefix) + [Spacer] + Select(cs, kind, Inside)
    ensures var kind := Classifier(Query(partial, caseSensitive));
      forall k :: ExitPoint(cs, kind, Cap(EffectiveLimit(limit, maximumMatches)), k) ==> r == Truncated(cs, kind, k)
  {
    var kind := Classifier(Query(partial, caseSensitive));
    var lim := EffectiveLimit(limit, maximumMatches);
    RankFromStart(cs, kind, lim);
    RankFrom(cs, kind, lim, [], [], 0)
  }

  /** Splitting off the first candidate of a non-empty prefix `rest[..k]`. */
  lemma SelectUnfold(rest: seq<Candidate>, kind: Candidate -> Kind, k: nat, c: Kind)
    requires 0 < k <= |rest|
    ensures Select(rest[..k], kind, c) == (if kind(rest[0]) == c then [Choice(rest[0])] else []) + Select(rest[1..][..k - 1], kind, c)
  {
    assert rest[..k][0] == rest[0];
    assert rest[..k][1..] == rest[1..][..k - 1];
  }

  /** Without an overflow the scan keeps every match. */
  lemma {:induction false} RankFromAll(rest: seq<Candidate>, kind: Candidate -> Kind, limit: int, best: seq<Entry>, other: seq<Entry>, n: nat)
    requires MatchCount(rest, kind) == 0 || n + MatchCount(rest, kind) <= limit
    ensures RankFrom(rest, kind, limit, best, other, n)
         == best + Select(rest, kind, Prefix) + [Spacer] + other + Select(rest, kind, Inside)
    decreases |rest|
  {
    if |rest| > 0 {
      var c := rest[0];
      match kind(c)
      case Prefix =>
        RankFromAll(rest[1..], kind, limit, best + [Choice(c)], other, n + 1);
      case Inside =>
        RankFromAll(rest[1..], kind, limit, best, other + [Choice(c)], n + 1);
      case Miss =>
        RankFromAll(rest[1..], kind, limit, best, other, n);
    }
  }

  /** What the scan returns when it stops at `rest[k]` with `best` and `other` collected before `rest`. */
  ghost function ExitResult(rest: seq<Candidate>, kind: Candidate -> Kind, k: nat, best: seq<Entry>, other: seq<Entry>): seq<Entry>
    requires k < |rest|
  {
    if kind(rest[k]) == Prefix then best + Select(rest[..k], kind, Prefix) + [Ellipsis]
    else best + Select(rest[..k], kind, Prefix) + [Choice(rest[k])] + other + Select(rest[..k], kind, Inside) + [Ellipsis]
  }

  /** Moving the first candidate of `rest` into the collected groups leaves the exit result unchanged. */
  lemma ExitResultShift(rest: seq<Candidate>, kind: Candidate -> Kind, k: nat, best: seq<Entry>, other: seq<Entry>)
    requires 0 < k < |rest|
    ensures kind(rest[0]) == Prefix ==>
      ExitResult(rest, kind, k, best, other) == ExitResult(rest[1..], kind, k - 1, best + [Choice(rest[0])], other)
    ensures kind(rest[0]) == Inside ==>
      ExitResult(rest, kind, k, best, other) == ExitResult(rest[1..], kind, k - 1, best, other + [Choice(rest[0])])
    ensures kind(rest[0]) == Miss ==>
      ExitResult(rest, kind, k, best, other) == ExitResult(rest[1..], kind, k - 1, best, other)
  {
    var c, tail := rest[0], rest[1..];
    assert tail[k - 1] == rest[k];
    var sp, si := Select(tail[..k - 1], kind, Prefix), Select(tail[..k - 1], kind, Inside);
    var x := rest[k];
    SelectUnfold(rest, kind, k, Prefix);
    SelectUnfold(rest, kind, k, Inside);
    match kind(c)
    case Prefix =>
      assert Select(rest[..k], kind, Prefix) == [Choice(c)] + sp && Select(rest[..k], kind, Inside) == si;
      if kind(x) == Prefix {
        assert best + ([Choice(c)] + sp) + [Ellipsis] == (best + [Choice(c)]) + sp + [Ellipsis];
      } else {
        assert best + ([Choice(c)] + sp) + [Choice(x)] + other + si + [Ellipsis]
            == (best + [Choice(c)]) + sp + [Choice(x)] + other + si + [Ellipsis];
      }
    case Inside =>
      assert Select(rest[..k], kind, Prefix) == sp && Select(rest[..k], kind, Inside) == [Choice(c)] + si;
      if kind(x) != Prefix {
        assert best + sp + [Choice(x)] + other + ([Choice(c)] + si) + [Ellipsis]
            == best + sp + [Choice(x)] + (other + [Choice(c)]) + si + [Ellipsis];
      }
    case Miss =>
      assert Select(rest[..k], kind, Prefix) == sp && Select(rest[..k], kind, Inside) == si;
  }

  /** The scan stops at the match that arrives with the cap reached. */
  lemma {:induction false} RankFromExit(rest: seq<Candidate>, kind: Candidate -> Kind, limit: int, best: seq<Entry>, other: seq<Entry>, n: nat, k: nat)
    requires k < |rest| && kind(rest[k]) != Miss && n + MatchCount(rest[..k], kind) == Cap(limit)
    ensures RankFrom(rest, kind, limit, best, other, n) == ExitResult(rest, kind, k, best, other)
    decreases |rest|
  {
    var c := rest[0];
    if k == 0 {
      assert rest[..0] == [];
      assert n >= limit;
    } else {
      var tail := rest[1..];
      var n' := if kind(c) == Miss then n else n + 1;
      var best' := if kind(c) == Prefix then best + [Choice(c)] else best;
      var other' := if kind(c) == Inside then other + [Choice(c)] else other;
      assert n' + MatchCount(tail[..k - 1], kind) == Cap(limit) && (kind(c) != Miss ==> n < limit) by {
        SelectUnfold(rest, kind, k, Prefix);
        SelectUnfold(rest, kind, k, Inside);
      }
      assert RankFrom(rest, kind, limit, best, other, n) == RankFrom(tail, kind, limit, best', other', n');
      RankFromExit(tail, kind, limit, best', other', n', k - 1);
      ExitResultShift(rest, kind, k, best, other);
    }
  }

  /** The scan started from nothing stops at the exit point with the truncated list. */
  lemma RankFromStartExit(cs: seq<Candidate>, kind: Candidate -> Kind, limit: int, k: nat)
    requires ExitPoint(cs, kind, Cap(limit), k)
    ensures RankFrom(cs, kind, limit, [], [], 0) == Truncated(cs, kind, k)
  {
    RankFromExit(cs, kind, limit, [], [], 0, k);
    var p := Select(cs[..k], kind, Prefix);
    var o := Select(cs[..k], kind, Inside);
    var e: seq<Entry> := [];
    if kind(cs[k]) == Prefix {
      assert ExitResult(cs, kind, k, e, e) == e + p + [Ellipsis];
      assert e + p + [Ellipsis] == p + [Ellipsis];
    } else {
      assert ExitResult(cs, kind, k, e, e) == e + p + [Choice(cs[k])] + e + o + [Ellipsis];
      assert e + p + [Choice(cs[k])] + e + o + [Ellipsis] == p + [Choice(cs[k])] + o + [Ellipsis];
    }
  }

  /** The scan started from nothing, with and without an overflow. */
  lemma RankFromStart(cs: seq<Candidate>, kind: Candidate -> Kind, limit: int)
    ensures MatchCount(cs, kind) <= Cap(limit) ==>
      RankFrom(cs, kind, limit, [], [], 0) == Select(cs, kind, Prefix) + [Spacer] + Select(cs, kind, Inside)
    ensures forall k :: ExitPoint(cs, kind, Cap(limit), k) ==> RankFrom(cs, kind, limit, [], [], 0) == Truncated(cs, kind, k)
  {
    if MatchCount(cs, kind) <= Cap(limit) {
      RankFromAll(cs, kind, limit, [], [], 0);
    }
    forall k | ExitPoint(cs, kind, Cap(limit), k)
      ensures RankFrom(cs, kind, limit, [], [], 0) == Truncated(cs, kind, k)
    {
      RankFromStartExit(cs, kind, limit, k);
    }
  }

  /** Every count below the number of matches is reached just before some match. */
  lemma {:induction false} ExitPointExists(cs: seq<Candidate>, kind: Candidate -> Kind, cap: nat) returns (k: nat)
    requires cap < MatchCount(cs, kind)
    ensures ExitPoint(cs, kind, cap, k)
    decreases |cs|
  {
    if kind(cs[0]) != Miss && cap == 0 {
      k := 0;
      assert cs[..0] == [];
    } else {
      var c := if kind(cs[0]) != Miss then cap - 1 else cap;
      var k' := ExitPointExists(cs[1..], kind, c);
      k := k' + 1;
      SelectUnfold(cs, kind, k, Prefix);
      SelectUnfold(cs, kind, k, Inside);
      assert cs[1..][k'] == cs[k];
    }
  }

  /** Every entry of `r` is a matching candidate of `cs`. */
  ghost predicate Kept(r: seq<Entry>, cs: seq<Candidate>, kind: Candidate -> Kind) {
    forall i :: 0 <= i < |r| ==> r[i].Choice? && r[i].item in cs && kind(r[i].item) != Miss
  }

  lemma KeptSelect(cs: seq<Candidate>, kind: Candidate -> Kind, k: Kind)
    requires k != Miss
    ensures Kept(Select(cs, kind, k), cs, kind)
  {
    SelectSound(cs, kind, k);
  }

  lemma KeptConcat(a: seq<Entry>, b: seq<Entry>, cs: seq<Candidate>, kind: Candidate -> Kind)
    requires Kept(a, cs, kind) && Kept(b, cs, kind)
    ensures Kept(a + b, cs, kind)
  {
    forall i | 0 <= i < |a + b|
      ensures (a + b)[i].Choice? && (a + b)[i].item in cs && kind((a + b)[i].item) != Miss
    {
      if i < |a| {
        assert (a + b)[i] == a[i];
      } else {
        assert (a + b)[i] == b[i - |a|];
      }
    }
  }

  lemma KeptWiden(r: seq<Entry>, cs: seq<Candidate>, k: nat, kind: Candidate -> Kind)
    requires k <= |cs| && Kept(r, cs[..k], kind)
    ensures Kept(r, cs, kind)
  {
    forall i | 0 <= i < |r|
      ensures r[i].item in cs
    {
      var j :| 0 <= j < k && cs[..k][j] == r[i].item;
      assert cs[j] == r[i].item;
    }
  }

  /** The truncated list is matching candidates of the input followed by one ellipsis. */
  lemma TruncatedShape(cs: seq<Candidate>, kind: Candidate -> Kind, cap: nat, k: nat)
    requires ExitPoint(cs, kind, cap, k)
    ensures var t := Truncated(cs, kind, k);
      && 0 < |t| <= cap + 2
      && t[|t| - 1] == Ellipsis
      && Kept(t[..|t| - 1], cs, kind)
  {
    var t := Truncated(cs, kind, k);
    var p := Select(cs[..k], kind, Prefix);
    var o := Select(cs[..k], kind, Inside);
    KeptSelect(cs[..k], kind, Prefix);
    KeptWiden(p, cs, k, kind);
    if kind(cs[k]) == Prefix {
      assert t[..|t| - 1] == p;
    } else {
      KeptSelect(cs[..k], kind, Inside);
      KeptWiden(o, cs, k, kind);
      assert Kept([Choice(cs[k])], cs, kind);
      KeptConcat(p, [Choice(cs[k])], cs, kind);
      KeptConcat(p + [Choice(cs[k])], o, cs, kind);
      assert t[..|t| - 1] == p + [Choice(cs[k])] + o;
    }
  }

  /**
   * When the matches exceed the cap, the list ends with an ellipsis, carries
   * no spacer, and holds at most `cap + 1` candidates, every one a match.
   */
  lemma RankOverflowShape(cs: seq<Candidate>, partial: string, caseSensitive: bool, limit: int, maximumMatches: int)
    requires MatchCount(cs, Classifier(Query(partial, caseSensitive))) > Cap(EffectiveLimit(limit, maximumMatches))
    ensures var r := Rank(cs, partial, caseSensitive, limit, maximumMatches);
      && 0 < |r| <= Cap(EffectiveLimit(limit, maximumMatches)) + 2
      && r[|r| - 1] == Ellipsis
      && Spacer !in r
      && forall i :: 0 <= i < |r| - 1 ==> r[i].Choice?
  {
    var kind := Classifier(Query(partial, caseSensitive));
    var cap := Cap(EffectiveLimit(limit, maximumMatches));
    var k := ExitPointExists(cs, kind, cap);
    var r := Rank(cs, partial, caseSensitive, limit, maximumMatches);
    assert r == Truncated(cs, kind, k);
    TruncatedShape(cs, kind, cap, k);
    forall i | 0 <= i < |r| - 1
      ensures r[i].Choice?
    {
      assert r[i] == r[..|r| - 1][i];
    }
  }

  /** Every candidate entry of `r` is a matching candidate of `cs`; spacers and ellipses are let through. */
  ghost predicate ChoicesKept(r: seq<Entry>, cs: seq<Candidate>, kind: Candidate -> Kind) {
    forall i :: 0 <= i < |r| && r[i].Choice? ==> r[i].item in cs && kind(r[i].item) != Miss
  }

  /** The untruncated list holds only matching candidates of the input. */
  lemma FullKept(cs: seq<Candidate>, kind: Candidate -> Kind)
    ensures ChoicesKept(Select(cs, kind, Prefix) + [Spacer] + Select(cs, kind, Inside), cs, kind)
  {
    var p, o := Select(cs, kind, Prefix), Select(cs, kind, Inside);
    var r := p + [Spacer] + o;
    KeptSelect(cs, kind, Prefix);
    KeptSelect(cs, kind, Inside);
    forall i | 0 <= i < |r| && r[i].Choice?
      ensures r[i].item in cs && kind(r[i].item) != Miss
    {
      if i < |p| {
        assert r[i] == p[i];
      } else if i > |p| {
        assert r[i] == o[i - |p| - 1];
      }
    }
  }

  /** The truncated list holds only matching candidates of the input. */
  lemma TruncatedKept(cs: seq<Candidate>, kind: Candidate -> Kind, cap: nat, k: nat)
    requires ExitPoint(cs, kind, cap, k)
    ensures ChoicesKept(Truncated(cs, kind, k), cs, kind)
  {
    var r := Truncated(cs, kind, k);
    TruncatedShape(cs, kind, cap, k);
    forall i | 0 <= i < |r| && r[i].Choice?
      ensures r[i].item in cs && kind(r[i].item) != Miss
    {
      assert r[i] == r[..|r| - 1][i];
    }
  }

  /** Every candidate `rank` keeps is one of its inputs and is classified as a hit. */
  lemma RankKeepsHits(cs: seq<Candidate>, partial: string, caseSensitive: bool, limit: int, maximumMatches: int)
    ensures ChoicesKept(Rank(cs, partial, caseSensitive, limit, maximumMatches), cs, Classifier(Query(partial, caseSensitive)))
  {
    var kind := Classifier(Query(partial, caseSensitive));
    var cap := Cap(EffectiveLimit(limit, maximumMatches));
    if MatchCount(cs, kind) <= cap {
      FullKept(cs, kind);
    } else {
      var k := ExitPointExists(cs, kind, cap);
      TruncatedKept(cs, kind, cap, k);
    }
  }

  /** Every candidate `rank` keeps is one of its inputs and contains the partial. */
  lemma RankKeepsMatches(cs: seq<Candidate>, partial: string, caseSensitive: bool, limit: int, maximumMatches: int)
    ensures var r := Rank(cs, partial, caseSensitive, limit, maximumMatches);
      forall i :: 0 <= i < |r| && r[i].Choice? ==>
        r[i].item in cs && Contains(r[i].item.title, partial, caseSensitive)
  {
    var q := Query(partial, caseSensitive);
    var r := Rank(cs, partial, caseSensitive, limit, maximumMatches);
    RankKeepsHits(cs, partial, caseSensitive, limit, maximumMatches);
    forall i | 0 <= i < |r| && r[i].Choice?
      ensures Contains(r[i].item.title, partial, caseSensitive)
    {
      assert KindOf(q, r[i].item) != Miss;
      if KindOf(q, r[i].item) == Prefix {
        StartsWithContains(r[i].item.title, partial, caseSensitive);
      }
    }
  }

  /** With no candidate at all the list is the spacer alone. */
  lemma RankEmpty(partial: string, caseSensitive: bool, limit: int, maximumMatches: int)
    ensures Rank([], partial, caseSensitive, limit, maximumMatches) == [Spacer]
  {
  }

  // ---------------------------------------------------------------------------
  // Paper references: influential-first ordering for an empty partial.
  // ---------------------------------------------------------------------------

  /** The `isInfluential` flag of a reference item (other items carry none). */
  predicate Influential(c: Candidate) {
    c.Reference? && c.influential
  }

  /** The order of the reference sort: influential items first, then titles in order. */
  predicate Before(a: Candidate, b: Candidate) {
    (Influential(a) && !Influential(b)) || (Influential(a) == Influential(b) && LexLeq(a.title, b.title))
  }

  lemma BeforeTotal(a: Candidate, b: Candidate)
    ensures Before(a, b) || Before(b, a)
  {
    LexLeqTotal(a.title, b.title);
  }

  lemma BeforeTransitive(a: Candidate, b: Candidate, c: Candidate)
    requires Before(a, b) && Before(b, c)
    ensures Before(a, c)
  {
    if Influential(a) == Influential(b) == Influential(c) {
      LexLeqTransitive(a.title, b.title, c.title);
    }
  }

  ghost predicate SortedByImportance(s: seq<Candidate>) {
    forall i, j :: 0 <= i < j < |s| ==> Before(s[i], s[j])
  }

  /** Inserts `x` before the first element it does not follow. */
  function InsertByImportance(x: Candidate, s: seq<Candidate>): (r: seq<Candidate>)
    ensures multiset(r) == multiset(s) + multiset{x}
    decreases |s|
  {
    if |s| == 0 then [x]
    else if Before(x, s[0]) then [x] + s
    else
      assert s == [s[0]] + s[1..];
      [s[0]] + InsertByImportance(x, s[1..])
  }

  /** Insertion into a sorted list keeps it sorted. */
  lemma {:induction false} InsertKeepsSorted(x: Candidate, s: seq<Candidate>)
    requires SortedByImportance(s)
    ensures SortedByImportance(InsertByImportance(x, s))
    decreases |s|
  {
    if |s| == 0 {
    } else if Before(x, s[0]) {
      forall k | 0 <= k < |s|
        ensures Before(x, s[k])
      {
        if k > 0 {
          BeforeTransitive(x, s[0], s[k]);
        }
      }
      PrependSorted(x, s);
    } else {
      var tail := s[1..];
      assert SortedByImportance(tail) by {
        forall i, j | 0 <= i < j < |tail|
          ensures Before(tail[i], tail[j])
        {
          assert tail[i] == s[i + 1] && tail[j] == s[j + 1];
        }
      }
      InsertKeepsSorted(x, tail);
      BeforeTotal(x, s[0]);
      forall k | 0 <= k < |tail|
        ensures Before(s[0], tail[k])
      {
        assert tail[k] == s[k + 1];
      }
      InsertLowerBound(s[0], x, tail);
      PrependSorted(s[0], InsertByImportance(x, tail));
    }
  }

  /** A sorted list stays sorted under a new head that comes before all of it. */
  lemma PrependSorted(a: Candidate, t: seq<Candidate>)
    requires SortedByImportance(t)
    requires forall k :: 0 <= k < |t| ==> Before(a, t[k])
    ensures SortedByImportance([a] + t)
  {
    var r := [a] + t;
    forall i, j | 0 <= i < j < |r|
      ensures Before(r[i], r[j])
    {
      assert r[j] == t[j - 1];
      if i > 0 {
        assert r[i] == t[i - 1];
      }
    }
  }

  /** What comes before `x` and before every element of `s` comes before every element after inserting `x`. */
  lemma {:induction false} InsertLowerBound(a: Candidate, x: Candidate, s: seq<Candidate>)
    requires Before(a, x)
    requires forall k :: 0 <= k < |s| ==> Before(a, s[k])
    ensures forall k :: 0 <= k < |InsertByImportance(x, s)| ==> Before(a, InsertByImportance(x, s)[k])
    decreases |s|
  {
    if |s| > 0 && !Before(x, s[0]) {
      var tail := s[1..];
      forall k | 0 <= k < |tail|
        ensures Before(a, tail[k])
      {
        assert tail[k] == s[k + 1];
      }
      InsertLowerBound(a, x, tail);
      var r := InsertByImportance(x, s);
      forall k | 0 <= k < |r|
        ensures Before(a, r[k])
      {
        if k > 0 {
          assert r[k] == InsertByImportance(x, tail)[k - 1];
        }
      }
    }
  }

  /** The ordering `completions.sort(...)` establishes, as an insertion sort. */
  function SortByImportance(s: seq<Candidate>): (r: seq<Candidate>)
    ensures multiset(r) == multiset(s)
    decreases |s|
  {
    if |s| == 0 then []
    else
      assert s == [s[0]] + s[1..];
      InsertByImportance(s[0], SortByImportance(s[1..]))
  }

  lemma {:induction false} SortIsSorted(s: seq<Candidate>)
    ensures SortedByImportance(SortByImportance(s))
    decreases |s|
  {
    if |s| > 0 {
      SortIsSorted(s[1..]);
      InsertKeepsSorted(s[0], SortByImportance(s[1..]));
    }
  }

  /** `s.slice(0, end)`: a negative end counts back from the length. */
  function SliceTo<T>(s: seq<T>, end: int): (r: seq<T>)
    ensures 0 <= end ==> |r| == (if end < |s| then end else |s|)
    ensures end < 0 ==> |r| == (if |s| + end < 0 then 0 else |s| + end)
    ensures r == s[..|r|]
  {
    var e := if end < 0 then |s| + end else end;
    if e < 0 then [] else if e < |s| then s[..e] else s
  }

  /** Each candidate as a ranked entry. */
  function Wrap(cs: seq<Candidate>): (r: seq<Entry>)
    ensures |r| == |cs|
    ensures forall i :: 0 <= i < |cs| ==> r[i] == Choice(cs[i])
  {
    seq(|cs|, i requires 0 <= i < |cs| => Choice(cs[i]))
  }

  /** The candidates of a ranked list, sentinels dropped. */
  function Chosen(es: seq<Entry>): (r: seq<Candidate>)
    ensures |r| <= |es|
  {
    if |es| == 0 then []
    else (if es[0].Choice? then [es[0].item] else []) + Chosen(es[1..])
  }

  lemma {:induction false} ChosenWrap(cs: seq<Candidate>)
    ensures Chosen(Wrap(cs)) == cs
    ensures Chosen(Wrap(cs) + [Ellipsis]) == cs
    decreases |cs|
  {
    if |cs| > 0 {
      ChosenWrap(cs[1..]);
      assert Wrap(cs)[1..] == Wrap(cs[1..]);
      assert (Wrap(cs) + [Ellipsis])[1..] == Wrap(cs[1..]) + [Ellipsis];
    } else {
      assert Wrap(cs) + [Ellipsis] == [Ellipsis];
      assert Chosen([Ellipsis]) == [] + Chosen([]);
    }
  }

  /**
   * `PaperReferencesCompletionSource.prototype.rank`: with an empty partial,
   * the candidates sorted influential-first then by title, cut to the limit,
   * and always an ellipsis; otherwise the shared ranking.
   */
  function PaperRank(cs: seq<Candidate>, partial: string, caseSensitive: bool, limit: int, maximumMatches: int): seq<Entry> {
    if |partial| == 0 then Wrap(SliceTo(SortByImportance(cs), EffectiveLimit(limit, maximumMatches))) + [Ellipsis]
    else Rank(cs, partial, caseSensitive, limit, maximumMatches)
  }

  /** Cutting `s` at `end`, wrapping and closing with an ellipsis lists a prefix of `s` before the ellipsis. */
  lemma CutShape(s: seq<Candidate>, end: int)
    ensures var r := Wrap(SliceTo(s, end)) + [Ellipsis];
      && |r| > 0 && r[|r| - 1] == Ellipsis && |r| - 1 <= |s|
      && forall i :: 0 <= i < |r| - 1 ==> r[i] == Choice(s[i])
  {
    var top := SliceTo(s, end);
    var r := Wrap(top) + [Ellipsis];
    forall i | 0 <= i < |r| - 1
      ensures r[i] == Choice(s[i])
    {
      assert r[i] == Wrap(top)[i];
      assert top[i] == s[i];
    }
  }

  /**
   * The empty-partial list: the first `end` candidates in importance order,
   * then an ellipsis. The kept candidates are drawn from the input, and each
   * comes before every candidate the cut dropped.
   */
  lemma TopShape(cs: seq<Candidate>, end: int)
    ensures var r := Wrap(SliceTo(SortByImportance(cs), end)) + [Ellipsis];
      && |r| > 0 && r[|r| - 1] == Ellipsis
      && (forall i :: 0 <= i < |r| - 1 ==> r[i].Choice? && r[i].item in cs)
      && (forall i, j :: 0 <= i < j < |r| - 1 ==> Before(r[i].item, r[j].item))
      && |r| - 1 == |SliceTo(cs, end)|
      && multiset(Chosen(r)) <= multiset(cs)
      && (forall i, c :: 0 <= i < |r| - 1 && c in multiset(cs) - multiset(Chosen(r)) ==> Before(r[i].item, c))
  {
    SortKeepsItems(cs);
    SortIsSorted(cs);
    CutShape(SortByImportance(cs), end);
    TopKeepsBest(cs, end);
  }

  /**
   * The cut keeps a sub-multiset of the input, and what it drops is the rest
   * of the sorted list, so every kept candidate comes before every dropped one.
   */
  lemma TopKeepsBest(cs: seq<Candidate>, end: int)
    ensures var r := Wrap(SliceTo(SortByImportance(cs), end)) + [Ellipsis];
      && multiset(Chosen(r)) <= multiset(cs)
      && (forall i, c :: 0 <= i < |r| - 1 && c in multiset(cs) - multiset(Chosen(r)) ==> Before(r[i].item, c))
  {
    var sorted := SortByImportance(cs);
    var top := SliceTo(sorted, end);
    SortIsSorted(cs);
    PrefixKeepsBest(sorted, |top|);
    CutItems(sorted, end);
  }

  /** The candidates of the cut list are the prefix of `s` it keeps, in order. */
  lemma CutItems(s: seq<Candidate>, end: int)
    ensures var top := SliceTo(s, end); var r := Wrap(top) + [Ellipsis];
      && Chosen(r) == s[..|top|]
      && forall i :: 0 <= i < |r| - 1 ==> r[i].item == s[i]
  {
    var top := SliceTo(s, end);
    var r := Wrap(top) + [Ellipsis];
    ChosenWrap(top);
    forall i | 0 <= i < |r| - 1
      ensures r[i].item == s[i]
    {
      assert r[i] == Wrap(top)[i];
    }
  }

  /** A prefix of a sorted list is a sub-multiset of it whose every element comes before everything left out. */
  lemma PrefixKeepsBest(s: seq<Candidate>, k: nat)
    requires SortedByImportance(s) && k <= |s|
    ensures multiset(s[..k]) <= multiset(s)
    ensures forall i, c :: 0 <= i < k && c in multiset(s) - multiset(s[..k]) ==> Before(s[i], c)
  {
    assert s == s[..k] + s[k..];
    assert multiset(s) == multiset(s[..k]) + multiset(s[k..]);
    forall i, c | 0 <= i < k && c in multiset(s) - multiset(s[..k])
      ensures Before(s[i], c)
    {
      assert c in multiset(s[k..]);
      var j :| k <= j < |s| && s[j] == c;
    }
  }

  /** Sorting keeps the length and draws every element from the input. */
  lemma SortKeepsItems(cs: seq<Candidate>)
    ensures |SortByImportance(cs)| == |cs|
    ensures forall i :: 0 <= i < |SortByImportance(cs)| ==> SortByImportance(cs)[i] in cs
  {
    var sorted := SortByImportance(cs);
    assert |multiset(sorted)| == |multiset(cs)|;
    forall i | 0 <= i < |sorted|
      ensures sorted[i] in cs
    {
      assert sorted[i] in multiset(cs);
    }
  }

  /** The empty-partial list never holds a spacer. */
  lemma TopNoSpacer(cs: seq<Candidate>, end: int)
    ensures Spacer !in Wrap(SliceTo(SortByImportance(cs), end)) + [Ellipsis]
  {
    var w := Wrap(SliceTo(SortByImportance(cs), end));
    forall i | 0 <= i < |w + [Ellipsis]|
      ensures (w + [Ellipsis])[i] != Spacer
    {
      if i < |w| {
        assert (w + [Ellipsis])[i] == w[i];
      }
    }
  }

  /** When the limit covers the input, the empty-partial list holds every candidate, each exactly as often as the input does. */
  lemma TopComplete(cs: seq<Candidate>, end: int)
    requires end >= |cs|
    ensures multiset(Chosen(Wrap(SliceTo(SortByImportance(cs), end)) + [Ellipsis])) == multiset(cs)
  {
    var sorted := SortByImportance(cs);
    assert |sorted| == |multiset(sorted)| == |multiset(cs)| == |cs|;
    var top := SliceTo(sorted, end);
    assert |top| == |sorted|;
    assert top == sorted[..|sorted|] == sorted;
    ChosenWrap(sorted);
  }

  /**
   * With an empty partial the list is the most important candidates of the
   * input, in importance order, as many as the limit allows (all of them when
   * the limit covers the input), then an ellipsis; with a typed partial it is
   * the shared ranking.
   */
  lemma PaperRankShape(cs: seq<Candidate>, partial: string, caseSensitive: bool, limit: int, maximumMatches: int)
    ensures var r := PaperRank(cs, partial, caseSensitive, limit, maximumMatches);
      |partial| > 0 ==> r == Rank(cs, partial, caseSensitive, limit, maximumMatches)
    ensures var r := PaperRank(cs, partial, caseSensitive, limit, maximumMatches);
      |partial| == 0 ==>
        && |r| > 0 && r[|r| - 1] == Ellipsis && Spacer !in r
        && (forall i :: 0 <= i < |r| - 1 ==> r[i].Choice? && r[i].item in cs)
        && (forall i, j :: 0 <= i < j < |r| - 1 ==> Before(r[i].item, r[j].item))
        && |r| - 1 == |SliceTo(cs, EffectiveLimit(limit, maximumMatches))|
        && multiset(Chosen(r)) <= multiset(cs)
        && (forall i, c :: 0 <= i < |r| - 1 && c in multiset(cs) - multiset(Chosen(r)) ==> Before(r[i].item, c))
        && (EffectiveLimit(limit, maximumMatches) >= |cs| ==> multiset(Chosen(r)) == multiset(cs))
  {
    var end := EffectiveLimit(limit, maximumMatches);
    TopShape(cs, end);
    TopNoSpacer(cs, end);
    if end >= |cs| {
      TopComplete(cs, end);
    }
  }
}

=== FILE: sources.dfy ===
/**
 * The completion sources: where candidates come from (the wiki's filter
 * search, a PDF's outline, a paper's resolved references) and how each source
 * answers `complete(partial, limit)`.
 */
module Sources {
  import opened Wrappers
  import opened Text
  import opened Pattern
  import opened Items
  import opened Ranking

  /** `wiki.filterTiddlers(filter)`: the titles a filter expression selects, in wiki order. */
  type Search = string -> seq<string>

  /** A node of a PDF's flattened outline: its title and its named destination. */
  datatype OutlineNode = OutlineNode(title: string, destination: string)

  /** A cited paper as the paper store describes it: an identifier `type:value` and a title. */
  datatype CitedPaper = CitedPaper(id: string, title: string)

  /** One reference of a paper; `paper` is null for a reference the store could not describe. */
  datatype PaperReference = PaperReference(paper: Option<CitedPaper>, influential: bool)

  /** `AssociatedPaperReference`: a described reference and the wiki entry it resolved to, if any. */
  datatype Associated = Associated(paper: CitedPaper, influential: bool, tiddlerTitle: Option<string>)

  /**
   * The three completion sources. Each carries its template (absent when
   * constructed without one), its case sensitivity and its default maximum.
   */
  datatype Source =
    | Filtering(template: Option<Template>, caseSensitive: bool, maximumMatches: int)
    | PdfNames(template: Option<Template>, caseSensitive: bool, maximumMatches: int,
               pdfName: string, outline: Option<seq<OutlineNode>>)
    | PaperReferences(template: Option<Template>, caseSensitive: bool, maximumMatches: int,
                      references: seq<Associated>)

  // ---------------------------------------------------------------------------
  // FilteringCompletionSource
  // ---------------------------------------------------------------------------

  /** The query a filtering source runs: its template's filter, or every tiddler without a template. */
  function FilterOf(template: Option<Template>): string {
    match template
    case Some(t) => t.filter
    case None => "[all[tiddlers]]"
  }

  /** Each title the search returned as a tiddler item. */
  function TiddlerItems(names: seq<string>): (r: seq<Candidate>)
    ensures |r| == |names|
    ensures forall i :: 0 <= i < |names| ==> r[i] == Tiddler(names[i])
  {
    seq(|names|, i requires 0 <= i < |names| => Tiddler(names[i]))
  }

  /** `FilteringCompletionSource.prototype.complete`. */
  function FilteringComplete(search: Search, template: Option<Template>, caseSensitive: bool, maximumMatches: int,
                             partial: string, limit: int): seq<Entry>
  {
    Rank(TiddlerItems(search(FilterOf(template))), partial, caseSensitive, limit, maximumMatches)
  }

  // ---------------------------------------------------------------------------
  // PDFNameCompletionSource
  // ---------------------------------------------------------------------------

  /** Each outline node as an outline item of the named PDF; a PDF without an outline offers nothing. */
  function OutlineItems(pdfName: string, outline: Option<seq<OutlineNode>>): (r: seq<Candidate>)
    ensures outline.None? ==> r == []
    ensures outline.Some? ==> |r| == |outline.value| && forall i :: 0 <= i < |r| ==>
      r[i] == OutlineEntry(outline.value[i].title, pdfName, outline.value[i].destination)
  {
    match outline
    case None => []
    case Some(nodes) =>
      seq(|nodes|, i requires 0 <= i < |nodes| => OutlineEntry(nodes[i].title, pdfName, nodes[i].destination))
  }

  /** `PDFNameCompletionSource.prototype.complete`. */
  function PdfComplete(pdfName: string, outline: Option<seq<OutlineNode>>, caseSensitive: bool, maximumMatches: int,
                       partial: string, limit: int): seq<Entry>
  {
    Rank(OutlineItems(pdfName, outline), partial, caseSensitive, limit, maximumMatches)
  }

  // ---------------------------------------------------------------------------
  // PaperReferencesCompletionSource
  // ---------------------------------------------------------------------------

  /**
   * The search `indexReferences` runs for a paper: non-draft entries whose
   * field named by the id's type (its part before the first colon, or the
   * whole id without one) holds the id.
   */
  function ReferenceQuery(id: string): (r: string)
    ensures var prefix := "[!has[draft.of]field:";
      && |r| >= |prefix| + |id| + 3
      && r[..|prefix|] == prefix
      && r[|r| - |id| - 3..] == "[" + id + "]]"
      && r[|prefix|..|r| - |id| - 3] <= id
      && ':' !in r[|prefix|..|r| - |id| - 3]
      && r[|prefix|..|r| - |id| - 3] == BeforeColon(id)
  {
    var prefix := "[!has[draft.of]field:";
    var field := BeforeColon(id);
    var r := prefix + field + "[" + id + "]]";
    assert r[..|prefix|] == prefix;
    assert r[|prefix|..|r| - |id| - 3] == field;
    assert r[|r| - |id| - 3..] == "[" + id + "]]";
    r
  }

  /** The first title a search returned, if any. */
  function First(names: seq<string>): (r: Option<string>)
    ensures r.Some? <==> |names| > 0
    ensures r.Some? ==> r.value == names[0]
  {
    if |names| > 0 then Some(names[0]) else None
  }

  /** A described reference with the wiki entry its identifier resolves to. */
  function Resolve(search: Search, p: CitedPaper, influential: bool): Associated {
    Associated(p, influential, First(search(ReferenceQuery(p.id))))
  }

  /** `indexReferences`, as a definition: references without a paper are skipped, the rest resolved in order. */
  function Indexed(search: Search, refs: seq<PaperReference>): (r: seq<Associated>)
    ensures |r| <= |refs|
  {
    Collect(refs, Resolver(search))
  }

  /** The resolution of one reference, or nothing when it describes no paper. */
  function Resolver(search: Search): PaperReference -> Option<Associated> {
    (ref: PaperReference) =>
      match ref.paper
      case None => None
      case Some(p) => Some(Resolve(search, p, ref.influential))
  }

  /** Indexing a concatenation indexes each part. */
  lemma IndexedAppend(search: Search, a: seq<PaperReference>, b: seq<PaperReference>)
    ensures Indexed(search, a + b) == Indexed(search, a) + Indexed(search, b)
  {
    CollectAppend(a, b, Resolver(search));
  }

  /** `a` is the resolution of some reference of `refs` that has a paper. */
  ghost predicate ResolvesSome(search: Search, refs: seq<PaperReference>, a: Associated) {
    exists j :: 0 <= j < |refs| && refs[j].paper == Some(a.paper)
                && a == Resolve(search, refs[j].paper.value, refs[j].influential)
  }

  /** A resolution of a later reference is a resolution of a reference of the whole list. */
  lemma ResolvesShift(search: Search, refs: seq<PaperReference>, a: Associated)
    requires |refs| > 0 && ResolvesSome(search, refs[1..], a)
    ensures ResolvesSome(search, refs, a)
  {
    var j :| 0 <= j < |refs[1..]| && refs[1..][j].paper == Some(a.paper)
             && a == Resolve(search, refs[1..][j].paper.value, refs[1..][j].influential);
    assert refs[j + 1] == refs[1..][j];
  }

  /**
   * What indexing keeps: one entry per described reference, in order, carrying
   * that reference's paper and flag and the first result of its search.
   */
  lemma {:induction false} IndexedFaithful(search: Search, refs: seq<PaperReference>)
    ensures (forall j :: 0 <= j < |refs| ==> refs[j].paper.Some?) ==> |Indexed(search, refs)| == |refs|
    ensures forall i :: 0 <= i < |Indexed(search, refs)| ==> ResolvesSome(search, refs, Indexed(search, refs)[i])
    decreases |refs|
  {
    if |refs| > 0 {
      IndexedFaithful(search, refs[1..]);
      var r := Indexed(search, refs);
      var t := Indexed(search, refs[1..]);
      var h := if refs[0].paper.Some? then 1 else 0;
      assert forall j :: 1 <= j < |refs| ==> refs[1..][j - 1] == refs[j];
      forall i | 0 <= i < |r|
        ensures ResolvesSome(search, refs, r[i])
      {
        if i < h {
          assert r[i] == Resolve(search, refs[0].paper.value, refs[0].influential);
        } else {
          assert r[i] == t[i - h];
          ResolvesShift(search, refs, r[i]);
        }
      }
    }
  }

  /** Indexing one more reference appends its resolution, or nothing when it has no paper. */
  lemma IndexedStep(search: Search, refs: seq<PaperReference>, i: nat)
    requires i < |refs|
    ensures refs[i].paper.None? ==> Indexed(search, refs[..i + 1]) == Indexed(search, refs[..i])
    ensures refs[i].paper.Some? ==>
      Indexed(search, refs[..i + 1]) == Indexed(search, refs[..i]) + [Resolve(search, refs[i].paper.value, refs[i].influential)]
  {
    IndexedAppend(search, refs[..i], [refs[i]]);
    CollectSingle(refs[i], Resolver(search));
    assert refs[..i + 1] == refs[..i] + [refs[i]];
  }

  /** `PaperReferencesCompletionSource.prototype.indexReferences`, the loop over the paper's references. */
  method IndexReferences(search: Search, refs: seq<PaperReference>) returns (r: seq<Associated>)
    ensures r == Indexed(search, refs)
    ensures |r| <= |refs|
  {
    r := [];
    if |refs| == 0 {
      return;
    }
    var i := 0;
    while i < |refs|
      invariant 0 <= i <= |refs|
      invariant r == Indexed(search, refs[..i])
    {
      var reference := refs[i];
      IndexedStep(search, refs, i);
      if reference.paper.None? {
        i := i + 1;
        continue;
      }
      var p := reference.paper.value;
      var matchingNames := search(ReferenceQuery(p.id));
      var matchingName: Option<string> := None;
      if |matchingNames| > 0 {
        matchingName := Some(matchingNames[0]);
      }
      assert matchingName == First(matchingNames);
      r := r + [Associated(p, reference.influential, matchingName)];
      i := i + 1;
    }
    assert refs[..i] == refs;
  }

  /** Each associated reference as a reference item. */
  function ReferenceItems(refs: seq<Associated>): (r: seq<Candidate>)
    ensures |r| == |refs|
    ensures forall i :: 0 <= i < |refs| ==>
      r[i] == Reference(refs[i].paper.title, refs[i].influential, refs[i].tiddlerTitle)
  {
    seq(|refs|, i requires 0 <= i < |refs| => Reference(refs[i].paper.title, refs[i].influential, refs[i].tiddlerTitle))
  }

  /** `PaperReferencesCompletionSource.prototype.complete`: nothing at all when there are no references. */
  function PaperComplete(refs: seq<Associated>, caseSensitive: bool, maximumMatches: int,
                         partial: string, limit: int): seq<Entry>
  {
    if |refs| == 0 then []
    else PaperRank(ReferenceItems(refs), partial, caseSensitive, limit, maximumMatches)
  }

  // ---------------------------------------------------------------------------
  // Dispatch
  // ---------------------------------------------------------------------------

  /** `source.complete(partial)`, called by the controller without a limit. */
  function Complete(search: Search, src: Source, partial: string): seq<Entry> {
    match src
    case Filtering(t, cs, m) => FilteringComplete(search, t, cs, m, partial, 0)
    case PdfNames(_, cs, m, name, outline) => PdfComplete(name, outline, cs, m, partial, 0)
    case PaperReferences(_, cs, m, refs) => PaperComplete(refs, cs, m, partial, 0)
  }

  /**
   * What each source offers when it has nothing to offer: the filtering and
   * PDF sources still rank an empty list (the spacer alone), the reference
   * source answers with an empty list.
   */
  lemma CompleteWithoutCandidates(search: Search, src: Source, partial: string)
    ensures src.Filtering? && search(FilterOf(src.template)) == [] ==> Complete(search, src, partial) == [Spacer]
    ensures src.PdfNames? && src.outline.None? ==> Complete(search, src, partial) == [Spacer]
    ensures src.PaperReferences? && src.references == [] ==> Complete(search, src, partial) == []
  {
    RankEmpty(partial, src.caseSensitive, 0, src.maximumMatches);
    if src.Filtering? && search(FilterOf(src.template)) == [] {
      assert TiddlerItems([]) == [];
    }
  }

  /**
   * Every candidate a source returns is one it was built from and contains the
   * partial: a tiddler the search returned, an outline node of its PDF, or
   * (once something is typed) one of its references.
   */
  lemma CompleteOffersMatches(search: Search, src: Source, partial: string)
    ensures var r := Complete(search, src, partial);
      forall i :: 0 <= i < |r| && r[i].Choice? && (|partial| > 0 || !src.PaperReferences?) ==>
        Contains(r[i].item.title, partial, src.caseSensitive)
    ensures var r := Complete(search, src, partial);
      src.Filtering? ==> forall i :: 0 <= i < |r| && r[i].Choice? ==>
        r[i].item.Tiddler? && r[i].item.title in search(FilterOf(src.template))
    ensures var r := Complete(search, src, partial);
      src.PdfNames? ==> forall i :: 0 <= i < |r| && r[i].Choice? ==>
        r[i].item.OutlineEntry? && r[i].item.pdfName == src.pdfName
    ensures var r := Complete(search, src, partial);
      src.PaperReferences? ==> forall i :: 0 <= i < |r| && r[i].Choice? ==>
        r[i].item in ReferenceItems(src.references)
  {
    match src
    case Filtering(t, cs, m) => FilteringOffersMatches(search, t, cs, m, partial);
    case PdfNames(_, cs, m, name, outline) => PdfOffersMatches(name, outline, cs, m, partial);
    case PaperReferences(_, cs, m, refs) => PaperOffersMatches(refs, cs, m, partial);
  }

  /** The filtering source offers searched titles containing the partial. */
  lemma FilteringOffersMatches(search: Search, t: Option<Template>, cs: bool, m: int, partial: string)
    ensures var r := FilteringComplete(search, t, cs, m, partial, 0);
      forall i :: 0 <= i < |r| && r[i].Choice? ==>
        && Contains(r[i].item.title, partial, cs)
        && r[i].item.Tiddler? && r[i].item.title in search(FilterOf(t))
  {
    var r := FilteringComplete(search, t, cs, m, partial, 0);
    var names := search(FilterOf(t));
    var items := TiddlerItems(names);
    RankKeepsMatches(items, partial, cs, 0, m);
    forall i | 0 <= i < |r| && r[i].Choice?
      ensures r[i].item.Tiddler? && r[i].item.title in names
    {
      var j :| 0 <= j < |items| && items[j] == r[i].item;
      assert r[i].item == Tiddler(names[j]);
    }
  }

  /** The PDF source offers outline entries of its own PDF containing the partial. */
  lemma PdfOffersMatches(name: string, outline: Option<seq<OutlineNode>>, cs: bool, m: int, partial: string)
    ensures var r := PdfComplete(name, outline, cs, m, partial, 0);
      forall i :: 0 <= i < |r| && r[i].Choice? ==>
        && Contains(r[i].item.title, partial, cs)
        && r[i].item.OutlineEntry? && r[i].item.pdfName == name
  {
    var r := PdfComplete(name, outline, cs, m, partial, 0);
    var items := OutlineItems(name, outline);
    RankKeepsMatches(items, partial, cs, 0, m);
    forall i | 0 <= i < |r| && r[i].Choice?
      ensures r[i].item.OutlineEntry? && r[i].item.pdfName == name
    {
      var j :| 0 <= j < |items| && items[j] == r[i].item;
    }
  }

  /** The reference source offers its own references, each containing the partial once one is typed. */
  lemma PaperOffersMatches(refs: seq<Associated>, cs: bool, m: int, partial: string)
    ensures var r := PaperComplete(refs, cs, m, partial, 0);
      forall i :: 0 <= i < |r| && r[i].Choice? ==>
        && (|partial| > 0 ==> Contains(r[i].item.title, partial, cs))
        && r[i].item in ReferenceItems(refs)
  {
    var items := ReferenceItems(refs);
    if |refs| > 0 {
      PaperRankShape(items, partial, cs, 0, m);
      if |partial| > 0 {
        RankKeepsMatches(items, partial, cs, 0, m);
      }
    }
  }

  /**
   * With nothing typed yet and no more titles than the maximum, a filtering
   * source lists every title the search returned, in order, then the spacer:
   * the empty partial is a prefix of every title.
   */
  lemma FilteringListsAllWhenEmpty(search: Search, t: Option<Template>, caseSensitive: bool, maximumMatches: int)
    requires |search(FilterOf(t))| <= maximumMatches
    ensures FilteringComplete(search, t, caseSensitive, maximumMatches, "", 0)
         == Wrap(TiddlerItems(search(FilterOf(t)))) + [Spacer]
  {
    var items := TiddlerItems(search(FilterOf(t)));
    var kind := Classifier(Query("", caseSensitive));
    SelectAllPrefix(items, caseSensitive);
    SelectNoneInside(items, caseSensitive);
    assert Cap(EffectiveLimit(0, maximumMatches)) == maximumMatches;
    assert Select(items, kind, Prefix) + [Spacer] + Select(items, kind, Inside) == Wrap(items) + [Spacer];
  }

  /** The empty partial is a prefix of every title. */
  lemma EmptyIsPrefix(title: string, caseSensitive: bool)
    ensures KindOf(Query("", caseSensitive), Plain(title)) == Prefix
  {
    assert Canon("", caseSensitive) == [];
    assert Canon(title, caseSensitive)[0..0] == [];
  }

  /** With nothing typed, the prefix group is the whole input. */
  lemma {:induction false} SelectAllPrefix(cs: seq<Candidate>, caseSensitive: bool)
    ensures Select(cs, Classifier(Query("", caseSensitive)), Prefix) == Wrap(cs)
    decreases |cs|
  {
    if |cs| > 0 {
      SelectAllPrefix(cs[1..], caseSensitive);
      EmptyIsPrefix(cs[0].title, caseSensitive);
      assert Wrap(cs) == [Choice(cs[0])] + Wrap(cs[1..]);
    }
  }

  /** With nothing typed, the contains-only group is empty. */
  lemma {:induction false} SelectNoneInside(cs: seq<Candidate>, caseSensitive: bool)
    ensures Select(cs, Classifier(Query("", caseSensitive)), Inside) == []
    decreases |cs|
  {
    if |cs| > 0 {
      SelectNoneInside(cs[1..], caseSensitive);
      EmptyIsPrefix(cs[0].title, caseSensitive);
    }
  }
}

=== FILE: text.dfy ===
/**
 * The JavaScript string primitives the completion engine relies on:
 * `indexOf`, `lastIndexOf` and `slice`, and the case folding applied by a
 * regular expression with the `i` flag. JavaScript strings are sequences of
 * UTF-16 code units; here a string is a `seq<char>`, a sequence of Unicode
 * scalar values, so positions, lengths, character codes and the order on
 * titles agree with JavaScript's only for text without characters outside
 * the Basic Multilingual Plane.
 */
module Text {

  /** `s` occurs in `text` starting at index `i`. */
  predicate OccursAt(text: string, s: string, i: int) {
    0 <= i && i + |s| <= |text| && text[i..i + |s|] == s
  }

  /** `text.lastIndexOf(s, from)`: the greatest start index `<= from` of an occurrence of `s`, or -1. */
  function LastIndexOf(text: string, s: string, from: nat): (r: int)
    ensures r == -1 || (0 <= r <= from && OccursAt(text, s, r))
    ensures forall j :: r < j <= from ==> !OccursAt(text, s, j)
    decreases from
  {
    if OccursAt(text, s, from) then from
    else if from == 0 then -1
    else LastIndexOf(text, s, from - 1)
  }

  /** `text.indexOf(s, from)`: the least start index `>= from` of an occurrence of `s`, or -1. */
  function IndexOf(text: string, s: string, from: nat): (r: int)
    ensures r == -1 || (from <= r && OccursAt(text, s, r))
    ensures forall j :: from <= j && (r == -1 || j < r) ==> !OccursAt(text, s, j)
    decreases |text| - from
  {
    if from + |s| > |text| then -1
    else if text[from..from + |s|] == s then from
    else IndexOf(text, s, from + 1)
  }

  /** `s.slice(lo, hi)` for non-negative bounds: both are clamped to the length, an inverted range is empty. */
  function Slice(s: string, lo: nat, hi: nat): (r: string)
    ensures lo <= hi <= |s| ==> r == s[lo..hi]
    ensures hi <= lo ==> r == []
  {
    var a := if lo < |s| then lo else |s|;
    var b := if hi < |s| then hi else |s|;
    if a < b then s[a..b] else []
  }

  /** Bounds past the end are clamped: an end beyond the length cuts at the length, a start beyond it gives nothing. */
  lemma SliceClamps(s: string, lo: nat, hi: nat)
    ensures lo <= |s| <= hi ==> Slice(s, lo, hi) == s[lo..]
    ensures |s| <= lo ==> Slice(s, lo, hi) == []
  {
  }

  /** Case folding of one character, restricted to ASCII letters. */
  function Fold(c: char): char {
    if 'A' <= c <= 'Z' then (c as int + 32) as char else c
  }

  /** The string as compared by a regular expression: folded unless the comparison is case sensitive. */
  function Canon(s: string, caseSensitive: bool): (r: string)
    ensures |r| == |s|
    ensures forall i :: 0 <= i < |s| ==> r[i] == (if caseSensitive then s[i] else Fold(s[i]))
  {
    if caseSensitive then s else seq(|s|, i requires 0 <= i < |s| => Fold(s[i]))
  }

  /** `title` begins with `partial` (the test of `RegExp("^" + escaped partial)`). */
  predicate StartsWith(title: string, partial: string, caseSensitive: bool) {
    OccursAt(Canon(title, caseSensitive), Canon(partial, caseSensitive), 0)
  }

  /** `title` contains `partial` somewhere (the test of `RegExp(escaped partial)`). */
  predicate Contains(title: string, partial: string, caseSensitive: bool) {
    IndexOf(Canon(title, caseSensitive), Canon(partial, caseSensitive), 0) >= 0
  }

  /** A string that begins with the partial also contains it. */
  lemma StartsWithContains(title: string, partial: string, caseSensitive: bool)
    requires StartsWith(title, partial, caseSensitive)
    ensures Contains(title, partial, caseSensitive)
  {
  }

  /** The prefix of `s` before its first `':'` (the first part of `s.split(":")`). */
  function BeforeColon(s: string): (r: string)
    ensures r <= s
    ensures ':' !in r
    ensures |r| == |s| || s[|r|] == ':'
  {
    if |s| == 0 || s[0] == ':' then [] else [s[0]] + BeforeColon(s[1..])
  }

  /** Lexicographic order on strings, character by character (code-unit order for BMP text). */
  predicate LexLeq(a: string, b: string) {
    |a| == 0 || (|b| > 0 && (a[0] < b[0] || (a[0] == b[0] && LexLeq(a[1..], b[1..]))))
  }

  lemma {:induction false} LexLeqTotal(a: string, b: string)
    ensures LexLeq(a, b) || LexLeq(b, a)
  {
    if |a| > 0 && |b| > 0 && a[0] == b[0] {
      LexLeqTotal(a[1..], b[1..]);
    }
  }

  lemma {:induction false} LexLeqTransitive(a: string, b: string, c: string)
    requires LexLeq(a, b) && LexLeq(b, c)
    ensures LexLeq(a, c)
  {
    if |a| > 0 && a[0] == b[0] && b[0] == c[0] {
      LexLeqTransitive(a[1..], b[1..], c[1..]);
    }
  }
}

=== FILE: wrappers.dfy ===
/** Failure-aware values and the controller state shared across the model. */
module Wrappers {

  /** A value that may be absent: JavaScript's `null` / `undefined`. */
  datatype Option<+T> = None | Some(value: T) {

    /** The held value, or `default` when there is none. */
    function GetOr(default: T): T {
      match this
      case Some(v) => v
      case None => default
    }
  }

  /** A computation that either yields a value or throws with a message. */
  datatype Result<+R> = Success(value: R) | Failure(message: string)

  /** The end of an event handler: it returned with a new state, or threw part-way with the state reached so far. */
  datatype Outcome<+S> = Done(state: S) | Thrown(state: S, message: string)

  /**
   * Which reading of a step the code gets wrong a handler follows: the code
   * as written, or the evidently intended correction.
   */
  datatype Build = AsWritten | Corrected

  /**
   * A controller's state: VOID waits for a trigger, PATTERN (`Typing`) lists
   * completions of the partial, SELECT (`Selecting`) moves through them.
   * The current controller calls these `STATE_VOID`, `STATE_PATTERN` and
   * `STATE_SELECT`; the legacy one uses the strings `"VOID"`, `"PATTERN"`
   * and `"SELECT"`.
   */
  datatype Phase = Void | Typing | Selecting
}
